=== FILE: README.md ===
# NAD AV receiver integration — a Dafny model

This project models the core of the NAD AV integration for the Unfolded Circle
remote platform. It covers the `NADDevice` that drives a NAD receiver over TCP,
RS-232 or Telnet, the media player entity's command handler, the setup flow
that checks user input and builds a device configuration, and the device
configuration record.

- `config.dfy` (`Config`): the `NADDeviceConfig` record, its defaults, and the
  source table with first-match lookups.
- `volume.dfy` (`Volume`): conversion between the platform's 0..100 percent and
  the receiver's native scales. TCP uses the doubled, offset `(dB + 90) * 2`
  scale; RS-232/Telnet uses raw decibels. Python's `int(float)` is exact
  rational arithmetic truncated toward zero.
- `receiver.dfy` (`Receiver`): the calls the receiver library accepts, the
  values it returns, and the three ways a call ends (a value, a transport
  error, any other exception).
- `refresh.dfy` (`Refresh`): the state refresh as pure functions of the
  outcomes it sees. The TCP refresh reads one status snapshot. The serial
  refresh asks up to four questions, gated on power, and stops at the first
  exception.
- `device.dfy` (`Device`): the `NadDevice` class with the fields the source
  updates in place. It holds the connection check, the two-attempt retry, both
  refreshes, `connect_client` and the seven commands. The receiver is an
  oracle: `respond(n, call)` is the reply to the n-th client call, and
  `connects(n)` says whether the n-th connection attempt succeeds. `calls`
  logs every client call and `events` every UPDATE event. Each method is
  proved against the pure refresh functions.
- `text.dfy` (`Text`): `str.strip()`, one-character `str.replace`, `str(int)`
  and `int(str)`, with the round trip `int(str(n)) == n`.
- `args.dfy` (`Args`): JSON parameter values with Python truthiness and
  `int(...)`.
- `media_player.dfy` (`MediaPlayer`): the advertised features and attributes,
  the command routing as a pure decision table (`Route`), and `HandleCommand`,
  which runs the routed operation on a `NadDevice`.
- `setup_flow.dfy` (`SetupFlow`): `query_device` and `discover_devices`.

The docstrings of `set_volume` and of the volume property speak of a
0..100 volume, but the code does not enforce that range. The model keeps the
code's behaviour, and states these consequences of it:

- `set_volume` takes the percent unclamped, and the serial reading is not
  clamped either (`Volume.SerialPercent`).
- Sending a percent and reading it back over TCP loses at most one point when
  the native range is at least 100 levels wide. The default range is 144
  levels. On a very narrow range much more is lost
  (`Volume.NarrowRangeRoundTrip`).
- The retry calls the connection base class's `disconnect()`, which is not
  part of this model. The model assumes it leaves the client set;
  `disconnect_client`, the integration's own hook, only logs. Under that
  assumption a connection check keeps reporting a client once one was created.
- Without a client, every command fails when `self._client.<method>` is looked
  up. That happens before `_execute_command` could attempt a reconnection, so
  no connection attempt is made.
- A serial source code of 0 is treated as "not found", because the source
  tests the code for truthiness.

## Model

| member | source | states |
|---|---|---|
| Config.WithDefaults | intg_nadav/config.py:12-25 | host and sources default to None, port to 53, serial port to /dev/ttyUSB0, volume range to -92..-20 dB with step 4; the default range is ordered and the step positive |
| Config.SourceNames | intg_nadav/device.py:124-125 | the source list is the table's names, one per entry, in table order |
| Config.NameOf | intg_nadav/device.py:254-255 | `sources.get(code)` finds a name exactly when some entry has that code, and then it is the first such entry's name |
| Config.FirstCode | intg_nadav/device.py:390-395 | the scan finds nothing exactly when no entry carries the name; otherwise it gives the code of the first entry that does |
| Config.SourceCode | intg_nadav/device.py:390-397 | a serial source code exists only with a non-empty table, and is the code of the first entry carrying the name; None when no entry carries it |
| Volume.TruncQuot | intg_nadav/device.py:233 | `int(n / d)` truncates toward zero: the quotient brackets n from below for n >= 0 and from above for n < 0 |
| Volume.TcpPercent | intg_nadav/device.py:226-233 | TCP reading: below the range gives 0, above it 100, inside it the truncated position scaled to percent; always in 0..100; a zero-width range is the division error |
| Volume.SerialPercent | intg_nadav/device.py:247-251 | serial reading: the position of the reading on an ordered range, scaled to percent and truncated toward zero, with no clamp: in 0..100 inside the range, at least 100 above it, at most 0 below it; None exactly on a zero-width range |
| Volume.TruncQuotSign | intg_nadav/device.py:414 | truncation toward zero keeps the numerator's sign |
| Volume.TruncQuotMonotone | intg_nadav/device.py:414 | truncation toward zero never decreases as the numerator grows |
| Volume.TcpNative | intg_nadav/device.py:38-39 | the TCP native level is even, and non-negative exactly from -90 dB up |
| Volume.PercentToNative | intg_nadav/device.py:411-414 | the level sent for a percent is the exact linear position on the range truncated toward zero, so within one native unit of it |
| Volume.PercentToNativeEndpoints | intg_nadav/device.py:411-414 | `_nad_volume_from_percent` sends 0 to the bottom of the range and 100 to the top |
| Volume.PercentToNativeMonotone | intg_nadav/device.py:411-414 | on an ordered range the native level never decreases as the percent grows |
| Volume.PercentToNativeInRange | intg_nadav/device.py:301-307 | every percent in 0..100 is sent as a level inside the ordered native range |
| Volume.TcpRoundTripEndpoints | intg_nadav/device.py:226-233 | 0 and 100 percent sent to a TCP receiver read back as exactly 0 and 100 |
| Volume.TcpRoundTripWithinOne | intg_nadav/device.py:411-414 | on a range at least 100 levels wide, any percent in 0..100 sent and read back over TCP gives that percent or one less |
| Volume.NarrowRangeRoundTrip | intg_nadav/device.py:411-414 | on a 2-level range, 49 percent is sent as the bottom level and reads back as 0 |
| Volume.DefaultTcpRange | intg_nadav/device.py:38-39 | the default -92..-20 dB range is the native range -4..140 |
| Volume.TcpNativeRangeOrdered | intg_nadav/device.py:38-39 | an ordered decibel range gives a non-empty native TCP range, at least 2 levels wide |
| Volume.SerialPercentUnclamped | intg_nadav/device.py:251 | the serial reading is not clamped: -10 dB reads as 113 and -100 dB as -11 on the default range |
| Refresh.TcpRefresh | intg_nadav/device.py:219-235 | without a status snapshot nothing changes; with one, power, mute and source are as reported, and the volume becomes the TCP percent of the reported level (level 0 when missing), kept only when the range has zero width and the level lies on it |
| Refresh.TcpRefreshVolumeInRange | intg_nadav/device.py:226-233 | the TCP refresh keeps the volume in 0..100 |
| Refresh.TcpRefreshTakesSnapshot | intg_nadav/device.py:221-224 | a status snapshot sets power, mute and source as reported; missing keys read as off, unmuted and None |
| Refresh.TcpMissingVolumeIsZero | intg_nadav/device.py:226 | a snapshot without a volume key is read as native level 0 |
| Refresh.TcpRefreshKeepsOnNoSnapshot | intg_nadav/device.py:219-235 | a failed status call or a falsy reply leaves the state unchanged |
| Refresh.SerialStep | intg_nadav/device.py:237-257 | a raised answer stops with nothing changed; the power answer sets power to "answer is On" and goes on exactly then; later answers keep power; only the source answer changes the source; the mute answer sets muted to "answer is On" and always goes on, and no other answer changes it; a None volume answer goes on unchanged, a number sets the unclamped serial percent (stopping on a zero-width range), anything else stops; only the volume answer changes the volume; the source answer always ends, and with a table and a truthy answer a number becomes the table's name for it and text becomes None, while otherwise the state is kept |
| Refresh.SerialRun | intg_nadav/device.py:237-257 | a refresh still asking after some answers has at least one question left |
| Refresh.SerialRefresh | intg_nadav/device.py:237-257 | a complete refresh saw at least one answer, and one whose power query raised leaves the state as it was |
| Refresh.SerialRunStopsAlike | intg_nadav/device.py:237-257 | where the serial refresh stops depends only on the answers, not on the state it starts from |
| Refresh.RefreshCompleteIgnoresState | intg_nadav/device.py:192-257 | which answers make a complete refresh does not depend on the starting state, so a command's optimistic update never changes the questions asked |
| Refresh.SerialRunKeepsMuted | intg_nadav/device.py:247-255 | the volume and source questions never change the mute flag |
| Refresh.SerialMuteReading | intg_nadav/device.py:244-245 | after a mute answer, the refresh goes on to the volume question and ends with muted exactly when the answer was On |
| Refresh.SerialRunKeepsPower | intg_nadav/device.py:243-255 | the questions after the power question never change the power flag |
| Refresh.SerialRunNext | intg_nadav/device.py:237-257 | a refresh that asked a further question continued past the previous answer |
| Refresh.SerialRunKeepsSource | intg_nadav/device.py:240-251 | the power, mute and volume questions never change the source |
| Refresh.SerialPowerGate | intg_nadav/device.py:240-243 | power is exactly "the answer was On"; the other three questions are asked only then; a failed power query stops the refresh with nothing changed |
| Refresh.SerialVolumeIsLastSet | intg_nadav/device.py:247-251 | a numeric volume answer leads on to the source question, and the refresh ends with that reading's unclamped percent |
| Refresh.SerialSourceLookup | intg_nadav/device.py:253-255 | the source changes only with a table and a truthy answer; a numeric code becomes the table's name for it, None when it is absent |
| Refresh.SerialRunExtend | intg_nadav/device.py:237-257 | one more answer to a refresh still asking takes exactly one step |
| Refresh.RefreshQueries | intg_nadav/device.py:199-202 | a refresh asks exactly the status call on TCP, and otherwise the power, mute, volume and source queries in that order |
| Refresh.RefreshFailureKeepsState | intg_nadav/device.py:234-257 | a refresh whose first call raised (the status call, caught at line 234, or the power query, caught at line 256) keeps the state it started from, so a command's optimistic update survives it |
| Device.UpdateEvent | intg_nadav/device.py:204-213 | the UPDATE event's state is "ON" exactly when powered and "OFF" otherwise, and it carries the volume, mute flag and source |
| Device.SourcesFrom | intg_nadav/device.py:113-122 | the source list is the reply's list of names, and empty for anything else |
| Device.FindSourceCode | intg_nadav/device.py:390-396 | the `for ... break` scan returns the first code carrying the name, or None when the table is missing or empty |
| Device.FirstCodeAt | intg_nadav/device.py:392-395 | the first entry carrying the name gives the first code |
| Device.NadDevice.constructor | intg_nadav/device.py:32-36 | a new device is off, at volume 0, unmuted, without source or source list, and without a client |
| Device.NadDevice.Invoke | intg_nadav/device.py:167 | one client call is logged and answered by the receiver |
| Device.NadDevice.Connect | intg_nadav/device.py:180 | a connection attempt is counted; on success a fresh client exists, otherwise the client is as before |
| Device.NadDevice.EnsureConnected | intg_nadav/device.py:142-153 | the device is up exactly when it had a client or the one connection attempt made without one succeeded |
| Device.NadDevice.ExecuteCommand | intg_nadav/device.py:155-190 | fails with no client call when not connected; otherwise at most two calls; a second call happens exactly after a transport failure, following one reconnect attempt; the result is the last reply's |
| Device.NadDevice.UpdateTcpState | intg_nadav/device.py:217-235 | one status call, and the new state is the TCP refresh of the old one on its outcome |
| Device.NadDevice.TakeStatus | intg_nadav/device.py:221-233 | a status snapshot changes the state exactly as the TCP refresh does |
| Device.NadDevice.Ask | intg_nadav/device.py:240-253 | one serial query is executed and its outcome and step are recorded in the refresh trace |
| Device.NadDevice.TakePower | intg_nadav/device.py:240-243 | the power answer sets the state as the serial refresh step does, and the refresh goes on only when it is On |
| Device.NadDevice.TakeMute | intg_nadav/device.py:244-245 | the mute answer sets the state as the serial refresh step does |
| Device.NadDevice.TakeVolume | intg_nadav/device.py:247-251 | the volume answer sets the state as the serial refresh step does; None goes on unchanged, and a value that is neither None nor a number, or a zero-width range, stops the refresh |
| Device.NadDevice.TakeSource | intg_nadav/device.py:253-255 | the source answer sets the state as the serial refresh step does |
| Device.NadDevice.UpdateSerialState | intg_nadav/device.py:237-257 | the queries executed are a complete serial refresh, and the new state is that refresh of the old one |
| Device.NadDevice.AskPower | intg_nadav/device.py:240-241 | the power question is asked once; the refresh goes on exactly when the answer is "On", and a raised query stops it with nothing changed |
| Device.NadDevice.UpdateWhilePowered | intg_nadav/device.py:243-255 | after power answered On, mute, volume and source are asked until the first failure, and the run finishes in the current state |
| Device.NadDevice.UpdateVolumeAndSource | intg_nadav/device.py:247-255 | the volume and source questions are asked until the first failure, and the run finishes in the current state |
| Device.NadDevice.UpdateState | intg_nadav/device.py:192-215 | without a client nothing is called, changed or emitted; otherwise a complete refresh in the configured dialect, then exactly one UPDATE event with the new state |
| Device.NadDevice.ConnectClient | intg_nadav/device.py:105-130 | refused without a client; TCP fetches the source list first (none if that fails), otherwise it is the table's names; then a full refresh |
| Device.NadDevice.RunCommand | intg_nadav/device.py:259-275 | a command succeeds exactly when its call returned; on failure state, events and calls after it are unchanged; on success the optimistic state is refreshed; no client means no call and no connection attempt |
| Device.NadDevice.PowerCommand | intg_nadav/device.py:264-267 | power on or off is `power_on`/`power_off` on TCP and `main_power("=", "On"/"Off")` otherwise |
| Device.NadDevice.VolumeCommand | intg_nadav/device.py:300-308 | the level sent is the percent converted on the dialect's native range, and lies inside that range for a percent in 0..100 |
| Device.NadDevice.StepCommand | intg_nadav/device.py:323-330 | a TCP step sets the current level plus or minus two native units per dB step; a serial step sends "+" or "-" |
| Device.NadDevice.MuteCommand | intg_nadav/device.py:365-372 | mute is `mute`/`unmute` on TCP and `main_mute("=", "On"/"Off")` otherwise |
| Device.NadDevice.TurnOn | intg_nadav/device.py:259-275 | sends power on in the configured dialect; on success power is set optimistically and then refreshed |
| Device.NadDevice.TurnOff | intg_nadav/device.py:277-293 | sends power off in the configured dialect; on success power is cleared optimistically and then refreshed |
| Device.NadDevice.SetVolumePercent | intg_nadav/device.py:295-316 | sends the converted native level; on success the percent is taken as given, unclamped, then refreshed |
| Device.NadDevice.VolumeUp | intg_nadav/device.py:318-337 | TCP sets the current level plus two native units per dB step, unclamped; serial sends "+"; no optimistic change |
| Device.NadDevice.VolumeDown | intg_nadav/device.py:339-358 | TCP sets the current level minus two native units per dB step, unclamped; serial sends "-"; no optimistic change |
| Device.NadDevice.SetMute | intg_nadav/device.py:360-380 | sends mute or unmute in the configured dialect; on success the mute flag is set optimistically and then refreshed |
| Device.NadDevice.SelectSource | intg_nadav/device.py:382-409 | TCP sends the name; serial sends the first code carrying it; without one, or with code 0, it fails with no call, connection attempt or change |
| Text.LeadingSpaces | intg_nadav/setup_flow.py:22-26 | counts the whitespace prefix: all of it is whitespace and the next character is not |
| Text.TrailingSpaces | intg_nadav/setup_flow.py:22-26 | counts the whitespace suffix: all of it is whitespace and the character before it is not |
| Text.Strip | intg_nadav/setup_flow.py:22-26 | `str.strip()` keeps the slice between the whitespace prefix and suffix, and the result neither starts nor ends with whitespace |
| Text.StripEmpty | intg_nadav/setup_flow.py:29 | a stripped string is empty exactly when it was all whitespace |
| Text.StripNoEdges | intg_nadav/setup_flow.py:22-26 | a string without whitespace at either end strips to itself |
| Text.StripIdempotent | intg_nadav/setup_flow.py:22-26 | stripping twice gives the same as stripping once |
| Text.Replace | intg_nadav/setup_flow.py:39 | every occurrence of one character becomes the other, nothing else changes, and none of the replaced character is left |
| Text.Digits | intg_nadav/setup_flow.py:33 | the decimal digits of a natural number, without leading zeros |
| Text.DigitsRoundTrip | intg_nadav/setup_flow.py:33 | reading back the printed digits gives the number |
| Text.IntToString | intg_nadav/setup_flow.py:33 | `str(n)` is canonical: a minus exactly for a negative n, then decimal digits with no leading zero |
| Text.ParseInt | intg_nadav/setup_flow.py:25 | `int(s)` of text succeeds exactly when the stripped text is digits after an optional sign, and then gives their value, negated after a minus |
| Text.ParseIntExamples | intg_nadav/setup_flow.py:25 | "+007" reads as 7, and "12a" raises |
| Text.IntRoundTrip | intg_nadav/media_player.py:82 | `int(str(n)) == n` for every integer |
| Args.ToInt | intg_nadav/media_player.py:82 | `int(x)`: integers as given, booleans as 0 or 1, floats truncated toward zero, text parsed, anything else raises |
| MediaPlayer.Features | intg_nadav/media_player.py:24-35 | the seven base features, plus source selection exactly when the source list is non-empty |
| MediaPlayer.InitialAttributes | intg_nadav/media_player.py:37-44 | state UNKNOWN, volume 0, unmuted; SOURCE_LIST present exactly when the list is non-empty, and then it is that list |
| MediaPlayer.SourceFeatureMatchesAttribute | intg_nadav/media_player.py:34-44 | the source-selection feature and the SOURCE_LIST attribute always appear together |
| MediaPlayer.Get | intg_nadav/media_player.py:81 | absent parameters or an absent key give the default, a present key its value |
| MediaPlayer.Route | intg_nadav/media_player.py:64-113 | NOT_IMPLEMENTED exactly for an unknown id; BAD_REQUEST exactly for a missing or falsy source; SERVER_ERROR exactly when `int(volume)` raises or the source is not text; each command routes to its device call: volume to the converted volume, select_source to the non-empty source text, toggles following the current power and mute flags |
| MediaPlayer.Reply | intg_nadav/media_player.py:67 | OK exactly when the device operation succeeded, SERVER_ERROR otherwise |
| MediaPlayer.VolumeDefaultsToZero | intg_nadav/media_player.py:81 | without parameters or without a volume key, the volume command sets 0 |
| MediaPlayer.TextVolumeIsParsed | intg_nadav/media_player.py:80-83 | a volume sent as the text of an integer sets exactly that integer |
| MediaPlayer.ToggleAlternates | intg_nadav/media_player.py:73-78 | toggle turns off a powered device and turns on an unpowered one |
| MediaPlayer.HandleCommand | intg_nadav/media_player.py:58-117 | an immediate answer changes nothing on the device; a device call answers OK or SERVER_ERROR; OK means exactly one UPDATE event; any other status leaves state and events unchanged; without a client the answer is never OK and nothing is called |
| SetupFlow.HostIdentifier | intg_nadav/setup_flow.py:33 | the identifier starts with the host, followed by an underscore and the port |
| SetupFlow.SerialIdentifier | intg_nadav/setup_flow.py:39 | the serial path with every `/` and `\` turned into `_`, the same length, and containing neither |
| SetupFlow.QueryDevice | intg_nadav/setup_flow.py:20-58 | a non-numeric port raises; otherwise the setup is refused exactly when the probe fails or the host (TCP/Telnet) or serial path is blank after stripping; success gives the stripped name or "NAD " and the type, and the defaults-filled config, with the stripped host, a host_port identifier and a non-empty host for TCP/Telnet, or the sanitised serial path and no host otherwise |
| SetupFlow.FailedProbeRefuses | intg_nadav/setup_flow.py:41-45 | a failed probe never yields a configuration |
| SetupFlow.BlankHostRefused | intg_nadav/setup_flow.py:28-31 | TCP/Telnet with a blank host is refused, whatever the probe would say |
| SetupFlow.EmptyFormRefused | intg_nadav/setup_flow.py:22-31 | an empty form defaults to TCP without a host and is refused |
| SetupFlow.DefaultPortConfig | intg_nadav/setup_flow.py:47-58 | a TCP host with the default port gives identifier host_53, and the record's default port, serial path, volume range, step and no sources |
| SetupFlow.HostIdentifierInjective | intg_nadav/setup_flow.py:33 | two host_port identifiers are equal only for the same host and port |
| SetupFlow.DiscoverDevices | intg_nadav/setup_flow.py:139-141 | discovery always finds nothing |

## Left out

- The `asyncio.sleep` pacing and `asyncio.to_thread` dispatch. Each client call is one atomic step.
- The connection base class (watchdog, reconnect delay, attempt limit, `connect`, `disconnect`). Connecting is an oracle that either creates a client or fails. The model assumes the base class's `disconnect()` leaves the client set; whether it does cannot be read from the integration, whose `disconnect_client` hook only logs.
- A retry after a reconnection calls the method bound to the old client object. The model does not distinguish client objects.
- `create_client` and the receiver library classes are not part of this model. The model keeps only the TCP-versus-other dialect choice.
- Floating point. All arithmetic is exact and truncates toward zero, so the model does not claim bit-exact agreement with the float results.
- A serial volume reading is a whole number of dB. A fractional reading from the receiver library, such as a half-dB step, is not modelled.
- Logging, `get_manual_entry_form` (a UI schema), the process bootstrap files and `NADConfigManager` (persistence in a library this model does not include).
- Device.SourcesFrom: a TCP `available_sources` result that is not a list of names is read as an empty list.
- A status dictionary that is empty or None is one falsy value.
- A status key that is present with the value None is not modelled. For `"volume"` the comparison with the native minimum raises a TypeError after power, mute and source were already set. For `"power"` and `"muted"` nothing raises: None is stored and reported (the UPDATE event then says `"OFF"` and `muted: None`), which the model's Boolean fields cannot hold. For `"source"`, None gives the same result as a missing key, which the model does cover.
- Source tables with text keys, as they come back from JSON, are not modelled. Codes are integers.
- MediaPlayer.Route: a truthy source that is not text answers SERVER_ERROR. This is exact for the serial dialect. For TCP, the receiver library that would receive the value is not part of this model.
- Text.ParseInt: `int()` of text here accepts ASCII digits only. It does not model underscores between digits or non-ASCII decimal digits.
- SetupFlow.QueryDevice: the name, host and serial path are assumed to be text. Other JSON values there are not modelled.
- The `_test_connection` probe is given as its pass/fail outcome.
- Volume.TcpPercent: a zero-width range raises ZeroDivisionError in the source. The model reports this as None, which ends the refresh without changing the volume.
- MediaPlayer.HandleCommand: states the status and the effect on state and events. Which receiver call was made is stated by `Route` and by each device command's own contract, not by this method.

=== FILE: args.dfy ===
/**
 * Values as they arrive from the platform in JSON: command parameters and
 * setup inputs, with Python's truthiness and `int(...)` conversion of them.
 */
module Args {
  import opened Wrappers
  import opened Text
  import opened Volume

  type Positive = n: int | n > 0 witness 1

  /**
   * A parameter value as it arrives in the command's JSON: an integer, a
   * finite float (the exact fraction num / den), an infinite or NaN float,
   * text, a boolean, null, or a list or object with `size` entries.
   */
  datatype Arg =
    | Int(i: int)
    | Real(num: int, den: Positive)
    | NonFinite
    | Str(s: string)
    | Bool(b: bool)
    | Null
    | Collection(size: nat)

  /** Python truthiness of a parameter value. */
  predicate Truthy(a: Arg) {
    match a
    case Int(i) => i != 0
    case Real(num, _) => num != 0
    case NonFinite => true
    case Str(s) => s != ""
    case Bool(b) => b
    case Null => false
    case Collection(size) => size > 0
  }

  /**
   * Python `int(a)`: integers as they are, booleans as 0 or 1, floats
   * truncated toward zero, text parsed as a decimal integer; anything else
   * raises, given here as None.
   */
  function ToInt(a: Arg): (r: Option<int>)
    ensures a.Int? ==> r == Some(a.i)
    ensures a.Bool? ==> r == Some(if a.b then 1 else 0)
    ensures a.Real? ==> r.Some? && (a.num >= 0 ==> 0 <= r.value * a.den <= a.num < r.value * a.den + a.den)
    ensures a.Real? ==> (a.num < 0 ==> r.value * a.den - a.den < a.num <= r.value * a.den <= 0)
    ensures a.Str? ==> r == ParseInt(a.s)
    ensures a.NonFinite? || a.Null? || a.Collection? ==> r.None?
  {
    match a
    case Int(i) => Some(i)
    case Bool(b) => Some(if b then 1 else 0)
    case Real(num, den) => TruncQuotSign(num, den); Some(TruncQuot(num, den))
    case Str(s) => ParseInt(s)
    case _ => None
  }
}

=== FILE: config.dfy ===
/** The persisted device configuration record and its defaults. */
module Config {
  import opened Wrappers

  /**
   * The configured source table: numeric input-selector code to name, in the
   * dictionary's insertion order (the order matters for first-match lookups
   * and for the source list shown to the user).
   */
  type SourceTable = seq<(int, string)>

  datatype DeviceConfig = DeviceConfig(
    identifier: string,
    name: string,
    connectionType: string,
    host: Option<string>,
    port: int,
    serialPort: string,
    minVolume: int,
    maxVolume: int,
    volumeStep: int,
    sources: Option<SourceTable>)

  const DefaultPort := 53
  const DefaultSerialPort := "/dev/ttyUSB0"
  const DefaultMinVolume := -92
  const DefaultMaxVolume := -20
  const DefaultVolumeStep := 4

  /** A record built from the three required fields, every other field at its default. */
  function WithDefaults(identifier: string, name: string, connectionType: string): (c: DeviceConfig)
    ensures c.identifier == identifier && c.name == name && c.connectionType == connectionType
    ensures c.host.None? && c.sources.None?
    ensures c.port == 53 && c.serialPort == "/dev/ttyUSB0"
    ensures c.minVolume == -92 && c.maxVolume == -20 && c.volumeStep == 4
    ensures c.minVolume < c.maxVolume && c.volumeStep > 0
  {
    DeviceConfig(identifier, name, connectionType, None, DefaultPort, DefaultSerialPort,
                 DefaultMinVolume, DefaultMaxVolume, DefaultVolumeStep, None)
  }

  /** Only the exact string "TCP" selects the packetized TCP dialect. */
  predicate IsTcp(c: DeviceConfig) {
    c.connectionType == "TCP"
  }

  /** A source table is used only when it is present and non-empty (Python truthiness). */
  predicate HasSources(c: DeviceConfig) {
    c.sources.Some? && |c.sources.value| > 0
  }

  /** The names of a source table, in order (`list(sources.values())`). */
  function SourceNames(t: SourceTable): (names: seq<string>)
    ensures |names| == |t|
    ensures forall i :: 0 <= i < |t| ==> names[i] == t[i].1
  {
    if t == [] then [] else [t[0].1] + SourceNames(t[1..])
  }

  /** The name stored under a code, first entry wins (`sources.get(code)`). */
  function NameOf(t: SourceTable, code: int): (r: Option<string>)
    ensures r.Some? <==> exists i :: 0 <= i < |t| && t[i].0 == code
    ensures r.Some? ==> exists i :: 0 <= i < |t| && t[i] == (code, r.value) &&
                                    forall j :: 0 <= j < i ==> t[j].0 != code
  {
    if t == [] then None
    else if t[0].0 == code then Some(t[0].1)
    else
      var r := NameOf(t[1..], code);
      assert forall i :: 1 <= i < |t| ==> t[i] == t[1..][i - 1];
      r
  }

  /** The code of the first entry carrying `name`, in table order. */
  function FirstCode(t: SourceTable, name: string): (r: Option<int>)
    ensures r.None? <==> forall i :: 0 <= i < |t| ==> t[i].1 != name
    ensures r.Some? ==> exists i :: 0 <= i < |t| && t[i] == (r.value, name) &&
                                    forall j :: 0 <= j < i ==> t[j].1 != name
  {
    if t == [] then None
    else if t[0].1 == name then Some(t[0].0)
    else
      var r := FirstCode(t[1..], name);
      assert forall i :: 1 <= i < |t| ==> t[i] == t[1..][i - 1];
      r
  }

  /** The code a serial `select_source` sends for `name`: none without a usable table. */
  function SourceCode(c: DeviceConfig, name: string): (r: Option<int>)
    ensures r.Some? ==> HasSources(c) && exists i :: 0 <= i < |c.sources.value| && c.sources.value[i] == (r.value, name) &&
                                             forall j :: 0 <= j < i ==> c.sources.value[j].1 != name
    ensures r.None? <==> !HasSources(c) || forall i :: 0 <= i < |c.sources.value| ==> c.sources.value[i].1 != name
  {
    if HasSources(c) then FirstCode(c.sources.value, name) else None
  }
}

=== FILE: device.dfy ===
/**
 * The NAD device: its last known state, the connection to the receiver
 * client, the bounded retry around every client call, the state refresh of
 * both dialects and the command operations.
 *
 * The receiver library and the connection base class are not part of this
 * model. A device is given `respond`, the reply the receiver gives to the
 * n-th call made on the client, and `connects`, whether the n-th connection
 * attempt succeeds; `calls` logs every client call in order.
 */
module Device {
  import opened Wrappers
  import opened Config
  import opened Receiver
  import opened Volume
  import opened Refresh

  /** The number of attempts `_execute_command` makes at most. */
  const MaxRetries := 2

  /** The receiver client object; only whether one exists matters here. */
  class Client {
  }

  /** The UPDATE event sent to the platform after a refresh. */
  datatype Event = Update(identifier: string, state: string, volume: int, muted: bool, source: Option<string>)

  /** The event a refresh emits: "state" is "ON" exactly when the device is powered. */
  function UpdateEvent(identifier: string, s: State): (e: Event)
    ensures e.state == "ON" <==> s.power
    ensures e.state == "OFF" <==> !s.power
    ensures e.identifier == identifier && e.volume == s.volume && e.muted == s.muted && e.source == s.source
  {
    Update(identifier, if s.power then "ON" else "OFF", s.volume, s.muted, s.source)
  }

  /** The source list a TCP `available_sources` reply gives; anything but a list of names gives none. */
  function SourcesFrom(reply: Reply): (names: seq<string>)
    ensures reply.Returned? && reply.value.Names? ==> names == reply.value.names
    ensures !(reply.Returned? && reply.value.Names?) ==> names == []
  {
    match reply
    case Returned(Names(ns)) => ns
    case _ => []
  }

  /** What a command operation recorded, for its postcondition. */
  datatype Trace = Trace(sent: Outcome, cut: nat, answers: seq<Outcome>, marks: seq<nat>)

  /**
   * The first code of a source table entry named `name`, with the source's
   * `for ... break` scan; a missing or empty table finds nothing.
   */
  method FindSourceCode(c: DeviceConfig, name: string) returns (code: Option<int>)
    ensures code == SourceCode(c, name)
  {
    code := None;
    if HasSources(c) {
      var t := c.sources.value;
      var i := 0;
      while i < |t|
        invariant 0 <= i <= |t|
        invariant forall j :: 0 <= j < i ==> t[j].1 != name
      {
        if t[i].1 == name {
          code := Some(t[i].0);
          FirstCodeAt(t, name, i);
          return;
        }
        i := i + 1;
      }
    }
  }

  /** The first entry carrying `name` gives the first code. */
  lemma {:induction false} FirstCodeAt(t: SourceTable, name: string, i: nat)
    requires i < |t| && t[i].1 == name
    requires forall j :: 0 <= j < i ==> t[j].1 != name
    ensures FirstCode(t, name) == Some(t[i].0)
  {
    if i > 0 {
      FirstCodeAt(t[1..], name, i - 1);
    }
  }

  class NadDevice {
    const config: DeviceConfig
    const respond: (nat, Call) -> Reply
    const connects: nat -> bool

    var power: bool
    var volume: int
    var muted: bool
    var source: Option<string>
    var sourceList: seq<string>
    var client: Client?

    var calls: seq<Call>
    var connectAttempts: nat
    var events: seq<Event>

    /** A new device: off, volume 0, unmuted, no source, no client. */
    constructor (config: DeviceConfig, respond: (nat, Call) -> Reply, connects: nat -> bool)
      ensures this.config == config && this.respond == respond && this.connects == connects
      ensures Current() == State(false, 0, false, None) && sourceList == []
      ensures client == null && calls == [] && connectAttempts == 0 && events == []
    {
      this.config := config;
      this.respond := respond;
      this.connects := connects;
      power, volume, muted, source, sourceList := false, 0, false, None, [];
      client := null;
      calls, connectAttempts, events := [], 0, [];
    }

    /** The bottom of the TCP native volume range. */
    function MinVolNad(): int {
      TcpNative(config.minVolume)
    }

    /** The top of the TCP native volume range. */
    function MaxVolNad(): int {
      TcpNative(config.maxVolume)
    }

    /** The state the platform sees. */
    function Current(): State
      reads this
    {
      State(power, volume, muted, source)
    }

    /** Whether a connection check now would find, or obtain, a client. */
    ghost predicate WillBeUp()
      reads this
    {
      client != null || connects(connectAttempts)
    }

    /**
     * Call `c` was sent at position n0 of `after`, sent once more when the
     * first reply was a transport failure, and `r` is what the last reply
     * stands for.
     */
    ghost predicate Answered(c: Call, n0: nat, after: seq<Call>, r: Outcome) {
      && n0 < |after| <= n0 + MaxRetries
      && (forall i :: n0 <= i < |after| ==> after[i] == c)
      && (|after| == n0 + 2 <==> respond(n0, c).TransportFailure?)
      && r == Lift(respond(|after| - 1, c))
    }

    /** A command execution: refused without a client, otherwise answered. */
    ghost predicate Executed(c: Call, n0: nat, wasUp: bool, after: seq<Call>, r: Outcome) {
      if wasUp then Answered(c, n0, after, r) else r == Raised(NotConnected) && |after| == n0
    }

    /**
     * The calls from marks[0] to the end of `after` are the executions of the
     * first |answers| queries, in order: query j ran between marks j and j + 1
     * with outcome answers[j].
     */
    ghost predicate Chain(queries: seq<Call>, answers: seq<Outcome>, marks: seq<nat>, after: seq<Call>)
      decreases |answers|
    {
      && |marks| == |answers| + 1
      && |answers| <= |queries|
      && marks[|answers|] == |after|
      && (|answers| > 0 ==>
            var k := |answers| - 1;
            && marks[k] <= |after|
            && Answered(queries[k], marks[k], after, answers[k])
            && Chain(queries, answers[..k], marks[..k + 1], after[..marks[k]]))
    }

    /**
     * Starting from `s0`, a complete refresh ran from call `from` on with
     * `answers`, left its result as the state, and emitted one UPDATE event.
     */
    ghost predicate RefreshedFrom(s0: State, from: nat, answers: seq<Outcome>, marks: seq<nat>, e0: seq<Event>)
      reads this
    {
      && |marks| >= 1 && marks[0] == from
      && Chain(RefreshQueries(config), answers, marks, calls)
      && RefreshComplete(config, s0, answers)
      && Current() == Refreshed(config, s0, answers)
      && events == e0 + [UpdateEvent(config.identifier, Current())]
    }

    /**
     * A command operation that sent `cmd` from call n0 on: without a client
     * the method lookup on it raises before anything is sent; otherwise the
     * command was answered. It succeeds exactly when the execution returned;
     * a failure changes no state and emits nothing; a success refreshes from
     * the optimistic state `s1`.
     */
    ghost predicate Commanded(cmd: Call, n0: nat, hadClient: bool, s0: State, s1: State, e0: seq<Event>, ok: bool, trace: Trace)
      reads this
    {
      && n0 <= trace.cut <= |calls|
      && (if hadClient then Answered(cmd, n0, calls[..trace.cut], trace.sent)
          else trace.sent == Raised(Other) && trace.cut == n0 && client == null)
      && (ok <==> trace.sent.Done?)
      && (!ok ==> Current() == s0 && events == e0 && |calls| == trace.cut)
      && (ok ==> client != null && RefreshedFrom(s1, trace.cut, trace.answers, trace.marks, e0))
    }

    /** One call on the client, answered by the receiver. */
    method Invoke(c: Call) returns (reply: Reply)
      modifies this`calls
      ensures calls == old(calls) + [c]
      ensures reply == respond(|old(calls)|, c)
    {
      reply := respond(|calls|, c);
      calls := calls + [c];
    }

    /** The base class's connect(): on success a new client object exists. */
    method Connect()
      modifies this`client, this`connectAttempts
      ensures connectAttempts == old(connectAttempts) + 1
      ensures if connects(old(connectAttempts)) then client != null && fresh(client) else client == old(client)
    {
      var succeeded := connects(connectAttempts);
      connectAttempts := connectAttempts + 1;
      if succeeded {
        client := new Client;
      }
    }

    /** `_ensure_connected`: one connection attempt when there is no client. */
    method EnsureConnected() returns (up: bool)
      modifies this`client, this`connectAttempts
      ensures up == old(WillBeUp()) && up == (client != null)
      ensures old(client) != null ==> client == old(client) && connectAttempts == old(connectAttempts)
      ensures old(client) == null ==> connectAttempts == old(connectAttempts) + 1
    {
      if client == null {
        Connect();
      }
      up := client != null;
    }

    /**
     * `_execute_command`: refuse without a client; otherwise send `c`, and
     * after a transport failure on the first attempt reconnect (whether or
     * not that succeeds) and send it once more. Any other failure, and a
     * transport failure on the last attempt, is raised.
     */
    method ExecuteCommand(c: Call) returns (r: Outcome)
      modifies this`client, this`connectAttempts, this`calls
      ensures old(calls) <= calls
      ensures Executed(c, old(|calls|), old(WillBeUp()), calls, r)
      ensures (client != null) == old(WillBeUp())
      ensures |calls| <= old(|calls|) + MaxRetries
      ensures connectAttempts == old(connectAttempts) + (if old(client) == null then 1 else 0)
                                 + (if |calls| == old(|calls|) + 2 then 1 else 0)
    {
      var up := EnsureConnected();
      if !up {
        return Raised(NotConnected);
      }
      ghost var n0, a0 := |calls|, connectAttempts;
      for attempt := 0 to MaxRetries
        invariant attempt <= 1
        invariant calls == old(calls) + Repeat(c, attempt)
        invariant attempt == 1 ==> respond(n0, c).TransportFailure?
        invariant connectAttempts == a0 + attempt
        invariant client != null
      {
        var reply := Invoke(c);
        match reply {
          case Returned(v) =>
            return Done(v);
          case OtherFailure =>
            return Raised(Other);
          case TransportFailure =>
            if attempt < MaxRetries - 1 {
              // disconnect() only logs; then reconnect, swallowing a failure
              Connect();
            } else {
              return Raised(Transport);
            }
        }
      }
    }

    /** A chain of executed queries grows by the next query's execution. */
    lemma ChainExtend(queries: seq<Call>, answers: seq<Outcome>, marks: seq<nat>,
                      before: seq<Call>, after: seq<Call>, a: Outcome)
      requires Chain(queries, answers, marks, before)
      requires |answers| < |queries| && before <= after
      requires Answered(queries[|answers|], |before|, after, a)
      ensures Chain(queries, answers + [a], marks + [|after|], after)
    {
      var answers', marks' := answers + [a], marks + [|after|];
      var k := |answers|;
      assert answers'[..k] == answers && answers'[k] == a;
      assert marks'[..k + 1] == marks && marks'[k] == |before| && marks'[k + 1] == |after|;
      assert after[..|before|] == before;
      assert Answered(queries[k], marks'[k], after, answers'[k]);
    }

    /**
     * `_update_tcp_state`: one status call; a snapshot sets power, mute and
     * source, then the clamped and scaled volume. Exceptions are swallowed.
     */
    method UpdateTcpState() returns (ghost answers: seq<Outcome>, ghost marks: seq<nat>)
      requires client != null
      modifies this`power, this`volume, this`muted, this`source, this`client, this`connectAttempts, this`calls
      ensures old(calls) <= calls && client != null
      ensures Chain([GetStatus], answers, marks, calls) && marks[0] == old(|calls|) && |answers| == 1
      ensures Current() == TcpRefresh(MinVolNad(), MaxVolNad(), old(Current()), answers[0])
    {
      ghost var before := calls;
      var r := ExecuteCommand(GetStatus);
      ChainExtend([GetStatus], [], [|before|], before, calls, r);
      answers, marks := [r], [|before|, |calls|];
      if r.Done? && r.value.Snapshot? {
        TakeStatus(r.value.status);
      }
      // a failed call, a falsy reply, or one without `get`: nothing changes
    }

    /**
     * A TCP status snapshot: power, mute and source as reported, then the
     * volume clamped to 0..100 and scaled; a zero-width range raises at the
     * division, after the other three fields were set.
     */
    method TakeStatus(st: Status)
      modifies this`power, this`volume, this`muted, this`source
      ensures Current() == TcpRefresh(MinVolNad(), MaxVolNad(), old(Current()), Done(Snapshot(st)))
    {
      power := st.power.GetOr(false);
      muted := st.muted.GetOr(false);
      source := st.source;
      var nadVolume := st.volume.GetOr(0);
      if nadVolume < MinVolNad() {
        volume := 0;
      } else if nadVolume > MaxVolNad() {
        volume := 100;
      } else if MaxVolNad() != MinVolNad() {
        volume := TruncQuot((nadVolume - MinVolNad()) * 100, MaxVolNad() - MinVolNad());
      }
    }

    /**
     * One question of the serial refresh: execute query k and record its
     * outcome, and the step the refresh takes on it, in the ghost trace.
     */
    method Ask(k: nat, ghost s0: State, ghost answers: seq<Outcome>, ghost marks: seq<nat>)
      returns (r: Outcome, ghost answers': seq<Outcome>, ghost marks': seq<nat>)
      requires client != null && k == |answers| < 4
      requires Chain(SerialQueries, answers, marks, calls)
      requires SerialRun(config, 0, s0, answers) == Asking(Current())
      modifies this`client, this`connectAttempts, this`calls
      ensures client != null && old(calls) <= calls
      ensures answers' == answers + [r] && |marks'| == |marks| + 1 && marks'[0] == marks[0]
      ensures Chain(SerialQueries, answers', marks', calls)
      ensures SerialRun(config, 0, s0, answers') == RunAfter(SerialStep(config, k, Current(), r))
    {
      ghost var before := calls;
      r := ExecuteCommand(SerialQueries[k]);
      ChainExtend(SerialQueries, answers, marks, before, calls, r);
      SerialRunExtend(config, 0, s0, answers, r);
      answers', marks' := answers + [r], marks + [|calls|];
    }

    /** The power answer: "On" powers on and lets the refresh go on; anything else stops it. */
    method TakePower(r: Outcome) returns (go: bool)
      requires r.Done?
      modifies this`power
      ensures go == SerialStep(config, 0, old(Current()), r).Next?
      ensures Current() == SerialStep(config, 0, old(Current()), r).state
    {
      power := r.value == Text("On");
      go := power;
    }

    /** The mute answer: muted exactly when it is "On". */
    method TakeMute(r: Outcome)
      requires r.Done?
      modifies this`muted
      ensures SerialStep(config, 1, old(Current()), r).Next?
      ensures Current() == SerialStep(config, 1, old(Current()), r).state
    {
      muted := r.value == Text("On");
    }

    /**
     * The volume answer: None keeps the volume, a number is scaled without
     * clamping; a zero-width range or a non-number raises and stops.
     */
    method TakeVolume(r: Outcome) returns (go: bool)
      requires r.Done?
      modifies this`volume
      ensures go == SerialStep(config, 2, old(Current()), r).Next?
      ensures Current() == SerialStep(config, 2, old(Current()), r).state
    {
      match r.value {
        case Nothing =>
          go := true;
        case Number(db) =>
          if config.maxVolume == config.minVolume {
            return false;   // division by zero
          }
          volume := TruncDiv((db - config.minVolume) * 100, config.maxVolume - config.minVolume);
          go := true;
        case _ =>
          go := false;      // arithmetic on a non-number
      }
    }

    /** The source answer: looked up in the configured table when there is one and the answer is truthy. */
    method TakeSource(r: Outcome)
      requires r.Done?
      modifies this`source
      ensures Current() == SerialStep(config, 3, old(Current()), r).state
    {
      if HasSources(config) && Truthy(r.value) {
        match r.value {
          case Number(n) => source := NameOf(config.sources.value, n);
          case Text(_) => source := None;
          case _ =>   // an unhashable key raises
        }
      }
    }

    /**
     * `_update_serial_state`: ask for power; only when it is "On" ask for
     * mute, volume and source. The first exception ends the refresh, keeping
     * what was already set.
     */
    method UpdateSerialState() returns (ghost answers: seq<Outcome>, ghost marks: seq<nat>)
      requires client != null
      modifies this`power, this`volume, this`muted, this`source, this`client, this`connectAttempts, this`calls
      ensures old(calls) <= calls && client != null
      ensures Chain(SerialQueries, answers, marks, calls) && marks[0] == old(|calls|)
      ensures SerialComplete(config, old(Current()), answers)
      ensures Current() == SerialRefresh(config, old(Current()), answers)
    {
      ghost var s0 := Current();
      var go;
      go, answers, marks := AskPower(s0);
      if go {
        answers, marks := UpdateWhilePowered(s0, answers, marks);
      }
    }

    /** The power question of `_update_serial_state` and what its answer sets. */
    method AskPower(ghost s0: State) returns (go: bool, ghost answers: seq<Outcome>, ghost marks: seq<nat>)
      requires client != null && s0 == Current()
      modifies this`power, this`client, this`connectAttempts, this`calls
      ensures old(calls) <= calls && client != null
      ensures |answers| == 1 && Chain(SerialQueries, answers, marks, calls) && marks[0] == old(|calls|)
      ensures SerialRun(config, 0, s0, answers) == if go then Asking(Current()) else Finished(Current())
    {
      var r;
      r, answers, marks := Ask(0, s0, [], [|calls|]);
      ghost var step := SerialStep(config, 0, s0, r);
      assert SerialRun(config, 0, s0, answers) == RunAfter(step);
      if r.Raised? {
        assert step == Stop(s0);
        go := false;
        return;
      }
      go := TakePower(r);
      assert Current() == step.state && go == step.Next?;
    }

    /** The part of `_update_serial_state` that runs once power answered "On": mute, volume, source. */
    method UpdateWhilePowered(ghost s0: State, ghost answers0: seq<Outcome>, ghost marks0: seq<nat>)
      returns (ghost answers: seq<Outcome>, ghost marks: seq<nat>)
      requires client != null && |answers0| == 1
      requires Chain(SerialQueries, answers0, marks0, calls)
      requires SerialRun(config, 0, s0, answers0) == Asking(Current())
      modifies this`volume, this`muted, this`source, this`client, this`connectAttempts, this`calls
      ensures old(calls) <= calls && client != null
      ensures Chain(SerialQueries, answers, marks, calls) && marks[0] == marks0[0]
      ensures |answers| <= 4 && SerialRun(config, 0, s0, answers) == Finished(Current())
    {
      var r;
      r, answers, marks := Ask(1, s0, answers0, marks0);
      if r.Raised? {
        return;
      }
      TakeMute(r);
      answers, marks := UpdateVolumeAndSource(s0, answers, marks);
    }

    /** The volume and source questions of a powered serial refresh. */
    method UpdateVolumeAndSource(ghost s0: State, ghost answers0: seq<Outcome>, ghost marks0: seq<nat>)
      returns (ghost answers: seq<Outcome>, ghost marks: seq<nat>)
      requires client != null && |answers0| == 2
      requires Chain(SerialQueries, answers0, marks0, calls)
      requires SerialRun(config, 0, s0, answers0) == Asking(Current())
      modifies this`volume, this`source, this`client, this`connectAttempts, this`calls
      ensures old(calls) <= calls && client != null
      ensures Chain(SerialQueries, answers, marks, calls) && marks[0] == marks0[0]
      ensures |answers| <= 4 && SerialRun(config, 0, s0, answers) == Finished(Current())
    {
      var r;
      r, answers, marks := Ask(2, s0, answers0, marks0);
      if r.Raised? {
        return;
      }
      var go := TakeVolume(r);
      if !go {
        return;
      }

      r, answers, marks := Ask(3, s0, answers, marks);
      if r.Raised? {
        return;
      }
      TakeSource(r);
    }

    /**
     * `_update_state`: without a client nothing happens; otherwise refresh in
     * the configured dialect and emit one UPDATE event with the new state.
     */
    method UpdateState() returns (ghost answers: seq<Outcome>, ghost marks: seq<nat>)
      modifies this`power, this`volume, this`muted, this`source, this`client, this`connectAttempts, this`calls, this`events
      ensures old(calls) <= calls
      ensures old(client) == null ==>
                && Current() == old(Current()) && events == old(events) && calls == old(calls)
                && client == null && connectAttempts == old(connectAttempts)
      ensures old(client) != null ==>
                client != null && RefreshedFrom(old(Current()), old(|calls|), answers, marks, old(events))
    {
      if client == null {
        return [], [];
      }
      if IsTcp(config) {
        answers, marks := UpdateTcpState();
      } else {
        answers, marks := UpdateSerialState();
      }
      events := events + [UpdateEvent(config.identifier, Current())];
    }

    /**
     * `connect_client`: refuse without a client; take the source list from
     * the TCP receiver (none if that call fails) or from the configured
     * table, then refresh.
     */
    method ConnectClient() returns (ok: bool, ghost answers: seq<Outcome>, ghost marks: seq<nat>)
      modifies this
      ensures ok == (old(client) != null)
      ensures !ok ==> && calls == old(calls) && Current() == old(Current()) && sourceList == old(sourceList)
                      && events == old(events) && client == null && connectAttempts == old(connectAttempts)
      ensures ok ==> && old(calls) <= calls
                     && (IsTcp(config) ==>
                           && |calls| > old(|calls|) && calls[old(|calls|)] == AvailableSources
                           && sourceList == SourcesFrom(respond(old(|calls|), AvailableSources))
                           && RefreshedFrom(old(Current()), old(|calls|) + 1, answers, marks, old(events)))
                     && (!IsTcp(config) ==>
                           && sourceList == (if HasSources(config) then SourceNames(config.sources.value) else [])
                           && RefreshedFrom(old(Current()), old(|calls|), answers, marks, old(events)))
    {
      if client == null {
        return false, [], [];   // RuntimeError("Client not created")
      }
      if IsTcp(config) {
        var reply := Invoke(AvailableSources);
        sourceList := SourcesFrom(reply);
      } else if HasSources(config) {
        sourceList := SourceNames(config.sources.value);
      } else {
        sourceList := [];
      }
      answers, marks := UpdateState();
      ok := true;
    }

    /**
     * The shape every command operation shares: execute `cmd`; on failure
     * report false; on success set the optimistic state `s1`, refresh, and
     * report true. No exception escapes.
     */
    method RunCommand(cmd: Call, s1: State) returns (ok: bool, ghost trace: Trace)
      modifies this`power, this`volume, this`muted, this`source, this`client, this`connectAttempts, this`calls, this`events
      ensures old(calls) <= calls
      ensures old(client) == null ==> connectAttempts == old(connectAttempts)
      ensures Commanded(cmd, old(|calls|), old(client != null), old(Current()), s1, old(events), ok, trace)
    {
      if client == null {
        return false, Trace(Raised(Other), |calls|, [], []);
      }
      var r := ExecuteCommand(cmd);
      ghost var sent := calls;
      trace := Trace(r, |calls|, [], []);
      assert Answered(cmd, old(|calls|), sent, r);
      if r.Raised? {
        return false, trace;
      }
      power, volume, muted, source := s1.power, s1.volume, s1.muted, s1.source;
      assert Current() == s1;
      ghost var answers, marks := UpdateState();
      assert calls[..trace.cut] == sent;
      trace := trace.(answers := answers, marks := marks);
      ok := true;
    }

    /** The call that switches the receiver on or off, in the configured dialect. */
    function PowerCommand(on: bool): (c: Call)
      ensures IsTcp(config) ==> c == (if on then PowerOn else PowerOff)
      ensures !IsTcp(config) ==> c == MainPower(Assign(Text(if on then "On" else "Off")))
    {
      if IsTcp(config) then (if on then PowerOn else PowerOff)
      else MainPower(Assign(Text(if on then "On" else "Off")))
    }

    /**
     * The call that sets an absolute volume given in percent, in the
     * configured dialect: a percent in 0..100 lands inside the native range.
     */
    function VolumeCommand(percent: int): (c: Call)
      ensures IsTcp(config) ==> c.SetVolume? && c.level == PercentToNative(percent, MinVolNad(), MaxVolNad())
      ensures IsTcp(config) && 0 <= percent <= 100 && config.minVolume <= config.maxVolume ==>
                MinVolNad() <= c.level <= MaxVolNad()
      ensures !IsTcp(config) ==> c.MainVolume? && c.op.Assign? && c.op.value.Number? &&
                                 c.op.value.n == PercentToNative(percent, config.minVolume, config.maxVolume)
      ensures !IsTcp(config) && 0 <= percent <= 100 && config.minVolume <= config.maxVolume ==>
                config.minVolume <= c.op.value.n <= config.maxVolume
    {
      assert 0 <= percent <= 100 && config.minVolume <= config.maxVolume ==>
               && MinVolNad() <= PercentToNative(percent, MinVolNad(), MaxVolNad()) <= MaxVolNad()
               && config.minVolume <= PercentToNative(percent, config.minVolume, config.maxVolume) <= config.maxVolume
      by {
        if 0 <= percent <= 100 && config.minVolume <= config.maxVolume {
          PercentToNativeInRange(percent, MinVolNad(), MaxVolNad());
          PercentToNativeInRange(percent, config.minVolume, config.maxVolume);
        }
      }
      if IsTcp(config) then SetVolume(PercentToNative(percent, MinVolNad(), MaxVolNad()))
      else MainVolume(Assign(Number(PercentToNative(percent, config.minVolume, config.maxVolume))))
    }

    /**
     * The call for one volume step: TCP sets the current level plus or minus
     * two native units per configured dB step, unclamped; RS-232/Telnet
     * sends "+" or "-".
     */
    function StepCommand(up: bool): (c: Call)
      reads this
      ensures IsTcp(config) ==>
                c.SetVolume? &&
                c.level == PercentToNative(volume, MinVolNad(), MaxVolNad()) + (if up then 2 else -2) * config.volumeStep
      ensures !IsTcp(config) ==> c == MainVolume(if up then Increase else Decrease)
    {
      if IsTcp(config) then
        var current := PercentToNative(volume, MinVolNad(), MaxVolNad());
        SetVolume(if up then current + 2 * config.volumeStep else current - 2 * config.volumeStep)
      else MainVolume(if up then Increase else Decrease)
    }

    /** The call that mutes or unmutes, in the configured dialect. */
    function MuteCommand(mute: bool): (c: Call)
      ensures IsTcp(config) ==> c == (if mute then Mute else Unmute)
      ensures !IsTcp(config) ==> c == MainMute(Assign(Text(if mute then "On" else "Off")))
    {
      if IsTcp(config) then (if mute then Mute else Unmute)
      else MainMute(Assign(Text(if mute then "On" else "Off")))
    }

    /** `turn_on`: optimistic power on, then refresh. */
    method TurnOn() returns (ok: bool, ghost trace: Trace)
      modifies this
      ensures old(calls) <= calls && sourceList == old(sourceList)
      ensures old(client) == null ==> connectAttempts == old(connectAttempts)
      ensures Commanded(PowerCommand(true), old(|calls|), old(client != null), old(Current()),
                        old(Current()).(power := true), old(events), ok, trace)
    {
      ok, trace := RunCommand(PowerCommand(true), Current().(power := true));
    }

    /** `turn_off`: optimistic power off, then refresh. */
    method TurnOff() returns (ok: bool, ghost trace: Trace)
      modifies this
      ensures old(calls) <= calls && sourceList == old(sourceList)
      ensures old(client) == null ==> connectAttempts == old(connectAttempts)
      ensures Commanded(PowerCommand(false), old(|calls|), old(client != null), old(Current()),
                        old(Current()).(power := false), old(events), ok, trace)
    {
      ok, trace := RunCommand(PowerCommand(false), Current().(power := false));
    }

    /** `set_volume`: send the converted level, take the percent as given (unclamped), then refresh. */
    method SetVolumePercent(percent: int) returns (ok: bool, ghost trace: Trace)
      modifies this
      ensures old(calls) <= calls && sourceList == old(sourceList)
      ensures old(client) == null ==> connectAttempts == old(connectAttempts)
      ensures Commanded(VolumeCommand(percent), old(|calls|), old(client != null), old(Current()),
                        old(Current()).(volume := percent), old(events), ok, trace)
    {
      ok, trace := RunCommand(VolumeCommand(percent), Current().(volume := percent));
    }

    /** `volume_up`: one step up, no optimistic change, then refresh. */
    method VolumeUp() returns (ok: bool, ghost trace: Trace)
      modifies this
      ensures old(calls) <= calls && sourceList == old(sourceList)
      ensures old(client) == null ==> connectAttempts == old(connectAttempts)
      ensures Commanded(old(StepCommand(true)), old(|calls|), old(client != null), old(Current()),
                        old(Current()), old(events), ok, trace)
    {
      ok, trace := RunCommand(StepCommand(true), Current());
    }

    /** `volume_down`: one step down, no optimistic change, then refresh. */
    method VolumeDown() returns (ok: bool, ghost trace: Trace)
      modifies this
      ensures old(calls) <= calls && sourceList == old(sourceList)
      ensures old(client) == null ==> connectAttempts == old(connectAttempts)
      ensures Commanded(old(StepCommand(false)), old(|calls|), old(client != null), old(Current()),
                        old(Current()), old(events), ok, trace)
    {
      ok, trace := RunCommand(StepCommand(false), Current());
    }

    /** `mute`: mute or unmute, optimistic mute flag, then refresh. */
    method SetMute(mute: bool) returns (ok: bool, ghost trace: Trace)
      modifies this
      ensures old(calls) <= calls && sourceList == old(sourceList)
      ensures old(client) == null ==> connectAttempts == old(connectAttempts)
      ensures Commanded(MuteCommand(mute), old(|calls|), old(client != null), old(Current()),
                        old(Current()).(muted := mute), old(events), ok, trace)
    {
      ok, trace := RunCommand(MuteCommand(mute), Current().(muted := mute));
    }

    /**
     * `select_source`: TCP passes the name through; RS-232/Telnet sends the
     * first code carrying the name, and fails without any call, connection
     * attempt or change when there is none (or it is the falsy code 0).
     */
    method SelectSource(name: string) returns (ok: bool, ghost trace: Trace)
      modifies this
      ensures old(calls) <= calls && sourceList == old(sourceList)
      ensures old(client) == null ==> connectAttempts == old(connectAttempts)
      ensures IsTcp(config) ==>
                Commanded(Call.SelectSource(name), old(|calls|), old(client != null), old(Current()),
                          old(Current()).(source := Some(name)), old(events), ok, trace)
      ensures !IsTcp(config) && SourceCode(config, name).Some? && SourceCode(config, name).value != 0 ==>
                Commanded(MainSource(Assign(Number(SourceCode(config, name).value))), old(|calls|), old(client != null),
                          old(Current()), old(Current()).(source := Some(name)), old(events), ok, trace)
      ensures !IsTcp(config) && (SourceCode(config, name).None? || SourceCode(config, name).value == 0) ==>
                && !ok && calls == old(calls) && Current() == old(Current()) && events == old(events)
                && client == old(client) && connectAttempts == old(connectAttempts)
    {
      if IsTcp(config) {
        ok, trace := RunCommand(Call.SelectSource(name), Current().(source := Some(name)));
      } else {
        var code := FindSourceCode(config, name);
        if code.Some? && code.value != 0 {
          ok, trace := RunCommand(MainSource(Assign(Number(code.value))), Current().(source := Some(name)));
        } else {
          ok, trace := false, Trace(Raised(Other), |calls|, [], []);
        }
      }
    }
  }
}

=== FILE: media_player.dfy ===
/**
 * The media player entity: the features and attributes it advertises, and
 * the command handler that turns a command id and its parameters into one
 * call on the NAD device and a status code.
 */
module MediaPlayer {
  import opened Wrappers
  import opened Text
  import opened Args
  import Device

  /** The media player features the entity can advertise. */
  datatype Feature = OnOff | Toggle | SetVolume | VolumeUpDown | MuteToggle | Mute | Unmute | SelectSource

  /** The features every NAD media player has. */
  const BaseFeatures: seq<Feature> := [OnOff, Toggle, SetVolume, VolumeUpDown, MuteToggle, Mute, Unmute]

  /** The advertised features: source selection only when the device knows some sources. */
  function Features(sourceList: seq<string>): (fs: seq<Feature>)
    ensures |sourceList| > 0 ==> fs == BaseFeatures + [SelectSource]
    ensures |sourceList| == 0 ==> fs == BaseFeatures
    ensures SelectSource in fs <==> |sourceList| > 0
  {
    if |sourceList| > 0 then BaseFeatures + [SelectSource] else BaseFeatures
  }

  /** The initial attributes; SOURCE_LIST is present only when not empty. */
  datatype Attributes = Attributes(state: string, volume: int, muted: bool, sourceList: Option<seq<string>>)

  function InitialAttributes(sourceList: seq<string>): (a: Attributes)
    ensures a.state == "UNKNOWN" && a.volume == 0 && !a.muted
    ensures a.sourceList.Some? <==> |sourceList| > 0
    ensures a.sourceList.Some? ==> a.sourceList.value == sourceList
  {
    Attributes("UNKNOWN", 0, false, if |sourceList| > 0 then Some(sourceList) else None)
  }

  /** Advertising source selection and listing sources always go together. */
  lemma SourceFeatureMatchesAttribute(sourceList: seq<string>)
    ensures SelectSource in Features(sourceList) <==> InitialAttributes(sourceList).sourceList.Some?
  {
  }

  /** The status codes the handler answers with. */
  datatype Status = Ok | BadRequest | ServerError | NotImplemented

  /** The command parameters: absent, or a mapping from names to values. */
  type Params = Option<map<string, Arg>>

  /** `params.get(key, default) if params else default`: absent and empty parameters give the default. */
  function Get(params: Params, key: string, default: Arg): (a: Arg)
    ensures params.Some? && key in params.value ==> a == params.value[key]
    ensures params.None? || key !in params.value ==> a == default
  {
    if params.Some? && params.value != map[] && key in params.value then params.value[key] else default
  }

  /** The NAD device operation a command asks for. */
  datatype DeviceCall =
    | TurnOn
    | TurnOff
    | SetVolumeTo(percent: int)
    | StepVolume(up: bool)
    | SetMute(mute: bool)
    | SelectSourceNamed(name: string)

  /** What the handler does: call the device and report its result, or answer at once. */
  datatype Action = Perform(call: DeviceCall) | Answer(status: Status)

  /** The command ids the handler knows. */
  const KnownCommands: set<string> :=
    {"on", "off", "toggle", "volume", "volume_up", "volume_down", "mute_toggle", "mute", "unmute", "select_source"}

  /**
   * `handle_command`, apart from the device call itself: the action for a
   * command id given the parameters and the device's power and mute flags.
   */
  function Route(id: string, params: Params, power: bool, muted: bool): (a: Action)
    ensures id !in KnownCommands <==> a == Answer(NotImplemented)
    ensures a.Answer? ==> a.status != Ok
    ensures a == Answer(BadRequest) <==> id == "select_source" && !Truthy(Get(params, "source", Null))
    ensures a == Answer(ServerError) <==>
              || (id == "volume" && ToInt(Get(params, "volume", Int(0))).None?)
              || (id == "select_source" && Truthy(Get(params, "source", Null)) && !Get(params, "source", Null).Str?)
    ensures id == "on" ==> a == Perform(TurnOn)
    ensures id == "off" ==> a == Perform(TurnOff)
    ensures id == "toggle" ==> a == Perform(if power then TurnOff else TurnOn)
    ensures id == "volume_up" ==> a == Perform(StepVolume(true))
    ensures id == "volume_down" ==> a == Perform(StepVolume(false))
    ensures id == "mute_toggle" ==> a == Perform(SetMute(!muted))
    ensures id == "mute" ==> a == Perform(SetMute(true))
    ensures id == "unmute" ==> a == Perform(SetMute(false))
    ensures id == "volume" && ToInt(Get(params, "volume", Int(0))).Some? ==>
              a == Perform(SetVolumeTo(ToInt(Get(params, "volume", Int(0))).value))
    ensures id == "select_source" && Get(params, "source", Null).Str? && Get(params, "source", Null).s != "" ==>
              a == Perform(SelectSourceNamed(Get(params, "source", Null).s))
    ensures a.Perform? && a.call.SetVolumeTo? ==>
              id == "volume" && ToInt(Get(params, "volume", Int(0))) == Some(a.call.percent)
    ensures a.Perform? && a.call.SelectSourceNamed? ==>
              id == "select_source" && Get(params, "source", Null) == Str(a.call.name) && a.call.name != ""
  {
    if id == "on" then Perform(TurnOn)
    else if id == "off" then Perform(TurnOff)
    else if id == "toggle" then Perform(if power then TurnOff else TurnOn)
    else if id == "volume" then
      match ToInt(Get(params, "volume", Int(0)))
      case Some(v) => Perform(SetVolumeTo(v))
      case None => Answer(ServerError)
    else if id == "volume_up" then Perform(StepVolume(true))
    else if id == "volume_down" then Perform(StepVolume(false))
    else if id == "mute_toggle" then Perform(SetMute(!muted))
    else if id == "mute" then Perform(SetMute(true))
    else if id == "unmute" then Perform(SetMute(false))
    else if id == "select_source" then
      var source := Get(params, "source", Null);
      if !Truthy(source) then Answer(BadRequest)
      else if source.Str? then Perform(SelectSourceNamed(source.s))
      else Answer(ServerError)   // a non-text source matches no name
    else Answer(NotImplemented)
  }

  /** The status of a command that reached the device: OK exactly when the device operation succeeded. */
  function Reply(ok: bool): (st: Status)
    ensures st == Ok <==> ok
    ensures st == ServerError <==> !ok
  {
    if ok then Ok else ServerError
  }

  /** A volume command without parameters, or without a volume, sets the volume to 0. */
  lemma VolumeDefaultsToZero(params: Params, power: bool, muted: bool)
    requires params.None? || "volume" !in params.value
    ensures Route("volume", params, power, muted) == Perform(SetVolumeTo(0))
  {
  }

  /** A volume sent as the text of an integer sets exactly that volume, whatever surrounds it. */
  lemma TextVolumeIsParsed(n: int, rest: map<string, Arg>, power: bool, muted: bool)
    ensures Route("volume", Some(rest["volume" := Str(IntToString(n))]), power, muted) == Perform(SetVolumeTo(n))
  {
    IntRoundTrip(n);
  }

  /** Toggling twice from any power state asks for both power states, once each. */
  lemma ToggleAlternates(params: Params, power: bool, muted: bool)
    ensures Route("toggle", params, power, muted) != Route("toggle", params, !power, muted)
    ensures Route("toggle", params, power, muted) == Perform(if power then TurnOff else TurnOn)
  {
  }

  /**
   * `handle_command` on a device: answer at once where the routing says so,
   * otherwise run the device operation and report whether it succeeded.
   */
  method HandleCommand(d: Device.NadDevice, id: string, params: Params) returns (status: Status)
    modifies d
    ensures Route(id, params, old(d.power), old(d.muted)).Answer? ==>
              status == Route(id, params, old(d.power), old(d.muted)).status && unchanged(d)
    ensures Route(id, params, old(d.power), old(d.muted)).Perform? ==> status == Ok || status == ServerError
    ensures status == Ok ==> |d.events| == old(|d.events|) + 1 && d.events[..old(|d.events|)] == old(d.events)
    ensures status != Ok ==> d.Current() == old(d.Current()) && d.events == old(d.events)
    ensures old(d.client) == null ==> status != Ok && d.calls == old(d.calls)
    ensures old(d.calls) <= d.calls && d.sourceList == old(d.sourceList)
  {
    var action := Route(id, params, d.power, d.muted);
    if action.Answer? {
      return action.status;
    }
    var done: bool;
    ghost var trace: Device.Trace;
    match action.call {
      case TurnOn => done, trace := d.TurnOn();
      case TurnOff => done, trace := d.TurnOff();
      case SetVolumeTo(v) => done, trace := d.SetVolumePercent(v);
      case StepVolume(up) =>
        if up {
          done, trace := d.VolumeUp();
        } else {
          done, trace := d.VolumeDown();
        }
      case SetMute(m) => done, trace := d.SetMute(m);
      case SelectSourceNamed(name) => done, trace := d.SelectSource(name);
    }
    status := Reply(done);
  }
}

=== FILE: receiver.dfy ===
/**
 * The receiver library seen from the device: the calls it accepts, the values
 * it returns and the ways a call fails. The library itself is not part of this
 * model; a device is given a script of its replies.
 */
module Receiver {
  import opened Wrappers

  /** A TCP status snapshot; a None field is a key missing from the reply. */
  datatype Status = Status(power: Option<bool>, muted: Option<bool>, source: Option<string>, volume: Option<int>)

  /** A value a library call returns. */
  datatype Value =
    | Nothing                  // None, and the empty status dictionary
    | Text(s: string)
    | Number(n: int)
    | Snapshot(status: Status) // a non-empty status dictionary
    | Names(names: seq<string>)

  /** Python truthiness of a returned value. */
  predicate Truthy(v: Value) {
    match v
    case Nothing => false
    case Text(s) => s != ""
    case Number(n) => n != 0
    case Snapshot(_) => true
    case Names(ns) => ns != []
  }

  /** The operator argument of the RS-232/Telnet methods: "?", "=" with a value, "+", "-". */
  datatype Op = Query | Assign(value: Value) | Increase | Decrease

  /** A call on the receiver client: the TCP methods, then the RS-232/Telnet ones. */
  datatype Call =
    | PowerOn | PowerOff | GetStatus | SetVolume(level: int) | Mute | Unmute
    | SelectSource(name: string) | AvailableSources
    | MainPower(op: Op) | MainMute(op: Op) | MainVolume(op: Op) | MainSource(op: Op)

  /**
   * What one call does: return a value, fail at the transport (OSError,
   * BrokenPipeError, ConnectionError), or raise any other exception.
   */
  datatype Reply = Returned(value: Value) | TransportFailure | OtherFailure

  /** Why a command execution raised. */
  datatype Failure = NotConnected | Transport | Other

  /** The result of a command execution: a value, or the exception it raised. */
  datatype Outcome = Done(value: Value) | Raised(failure: Failure)

  /** The outcome a single reply stands for. */
  function Lift(r: Reply): Outcome {
    match r
    case Returned(v) => Done(v)
    case TransportFailure => Raised(Transport)
    case OtherFailure => Raised(Other)
  }

  /** `n` copies of a call. */
  function Repeat(c: Call, n: nat): (s: seq<Call>)
    ensures |s| == n && forall i :: 0 <= i < n ==> s[i] == c
  {
    if n == 0 then [] else Repeat(c, n - 1) + [c]
  }
}

=== FILE: refresh.dfy ===
/**
 * The state refresh as a function of the outcomes it sees: the TCP refresh
 * reads one status snapshot, the RS-232/Telnet refresh asks up to four
 * questions and stops at the first exception.
 */
module Refresh {
  import opened Wrappers
  import opened Config
  import opened Receiver
  import opened Volume

  /** The device's last known state, as the platform sees it. */
  datatype State = State(power: bool, volume: int, muted: bool, source: Option<string>)

  /**
   * The TCP refresh after the status call had outcome `o`: a snapshot sets
   * power, mute and source (missing keys read as off, unmuted, None) and then
   * the volume, whose conversion stops the refresh on a zero-width range. Any
   * other outcome changes nothing.
   */
  function TcpRefresh(lo: int, hi: int, s: State, o: Outcome): (t: State)
    ensures !(o.Done? && o.value.Snapshot?) ==> t == s
    ensures t.volume == s.volume || 0 <= t.volume <= 100
    ensures o.Done? && o.value.Snapshot? ==>
              && t.power == (o.value.status.power == Some(true))
              && t.muted == (o.value.status.muted == Some(true))
              && t.source == o.value.status.source
    ensures o.Done? && o.value.Snapshot? ==>
              t.volume == (var p := TcpPercent(o.value.status.volume.GetOr(0), lo, hi); if p.Some? then p.value else s.volume)
  {
    match o
    case Done(Snapshot(st)) =>
      var t := s.(power := st.power.GetOr(false), muted := st.muted.GetOr(false), source := st.source);
      (match TcpPercent(st.volume.GetOr(0), lo, hi)
       case Some(p) => t.(volume := p)
       case None => t)
    case _ => s
  }

  /** The TCP refresh keeps the volume inside 0..100. */
  lemma TcpRefreshVolumeInRange(lo: int, hi: int, s: State, o: Outcome)
    requires 0 <= s.volume <= 100
    ensures 0 <= TcpRefresh(lo, hi, s, o).volume <= 100
  {
  }

  /** A snapshot's power, mute and source are taken as reported, a missing key as off, unmuted and None. */
  lemma TcpRefreshTakesSnapshot(lo: int, hi: int, s: State, st: Status)
    ensures var t := TcpRefresh(lo, hi, s, Done(Snapshot(st)));
            t.power == (st.power == Some(true)) && t.muted == (st.muted == Some(true)) && t.source == st.source
  {
  }

  /** A snapshot without a volume key is read as native level 0. */
  lemma TcpMissingVolumeIsZero(lo: int, hi: int, s: State, st: Status)
    requires st.volume.None?
    ensures TcpRefresh(lo, hi, s, Done(Snapshot(st))) == TcpRefresh(lo, hi, s, Done(Snapshot(st.(volume := Some(0)))))
  {
  }

  /** A failed status call, or a falsy or malformed reply, leaves the state as it was. */
  lemma TcpRefreshKeepsOnNoSnapshot(lo: int, hi: int, s: State, o: Outcome)
    requires !(o.Done? && o.value.Snapshot?)
    ensures TcpRefresh(lo, hi, s, o) == s
  {
  }

  /** The questions of the RS-232/Telnet refresh, in the order it asks them. */
  const SerialQueries: seq<Call> := [MainPower(Query), MainMute(Query), MainVolume(Query), MainSource(Query)]

  /** After one answer the serial refresh either asks the next question or stops. */
  datatype Step = Next(state: State) | Stop(state: State)

  /** The source a serial source reply names: a number is looked up, text matches no integer code. */
  function SourceFromReply(c: DeviceConfig, s: State, v: Value): State
    requires HasSources(c)
  {
    match v
    case Number(n) => s.(source := NameOf(c.sources.value, n))
    case Text(_) => s.(source := None)
    case _ => s   // an unhashable list or dictionary key raises; nothing changes
  }

  /** The serial refresh's reaction to the outcome of question `i`. */
  function SerialStep(c: DeviceConfig, i: nat, s: State, o: Outcome): (r: Step)
    requires i < 4
    ensures o.Raised? ==> r == Stop(s)
    ensures i == 0 && o.Done? ==> r.state.power == (o.value == Text("On")) && (r.Next? <==> r.state.power)
    ensures i > 0 ==> r.state.power == s.power
    ensures i < 3 ==> r.state.source == s.source
    ensures i == 1 && o.Done? ==> r.Next? && r.state.muted == (o.value == Text("On"))
    ensures i != 1 ==> r.state.muted == s.muted
    ensures i == 2 && o.Done? && o.value.Nothing? ==> r == Next(s)
    ensures i == 2 && o.Done? && o.value.Number? ==>
              var p := SerialPercent(o.value.n, c.minVolume, c.maxVolume);
              (p.Some? ==> r == Next(s.(volume := p.value))) && (p.None? ==> r == Stop(s))
    ensures i == 2 && o.Done? && !o.value.Nothing? && !o.value.Number? ==> r == Stop(s)
    ensures i != 2 ==> r.state.volume == s.volume
    ensures i == 3 ==> r.Stop?
    ensures i == 3 && o.Done? && HasSources(c) && Truthy(o.value) && o.value.Number? ==>
              r.state.source == NameOf(c.sources.value, o.value.n)
    ensures i == 3 && o.Done? && HasSources(c) && Truthy(o.value) && o.value.Text? ==> r.state.source == None
    ensures i == 3 && !(o.Done? && HasSources(c) && Truthy(o.value)) ==> r == Stop(s)
  {
    if o.Raised? then Stop(s)
    else if i == 0 then
      var on := o.value == Text("On");
      if on then Next(s.(power := true)) else Stop(s.(power := false))
    else if i == 1 then
      Next(s.(muted := o.value == Text("On")))
    else if i == 2 then
      match o.value
      case Nothing => Next(s)
      case Number(db) =>
        (match SerialPercent(db, c.minVolume, c.maxVolume)
         case Some(p) => Next(s.(volume := p))
         case None => Stop(s))
      case _ => Stop(s)   // arithmetic on a non-number raises
    else
      Stop(if HasSources(c) && Truthy(o.value) then SourceFromReply(c, s, o.value) else s)
  }

  /** The result of feeding answers to the serial refresh from question `i` on. */
  datatype Run = Asking(state: State) | Finished(state: State) | Overrun

  function SerialRun(c: DeviceConfig, i: nat, s: State, answers: seq<Outcome>): (r: Run)
    requires i + |answers| <= 4
    ensures r.Asking? && answers != [] ==> i + |answers| <= 3
    decreases |answers|
  {
    if answers == [] then Asking(s)
    else match SerialStep(c, i, s, answers[0])
      case Stop(t) => if |answers| == 1 then Finished(t) else Overrun
      case Next(t) => SerialRun(c, i + 1, t, answers[1..])
  }

  /** Where a run stands after its last step. */
  function RunAfter(step: Step): Run {
    match step
    case Stop(t) => Finished(t)
    case Next(t) => Asking(t)
  }

  /** `answers` are exactly the outcomes a serial refresh sees before it stops. */
  predicate SerialComplete(c: DeviceConfig, s: State, answers: seq<Outcome>) {
    |answers| <= 4 && SerialRun(c, 0, s, answers).Finished?
  }

  /** The state a complete serial refresh leaves. */
  function SerialRefresh(c: DeviceConfig, s: State, answers: seq<Outcome>): (t: State)
    requires SerialComplete(c, s, answers)
    ensures |answers| >= 1
    ensures answers[0].Raised? ==> t == s
  {
    SerialRun(c, 0, s, answers).state
  }

  /** Whether a refresh stops does not depend on the state it starts from. */
  lemma {:induction false} SerialRunStopsAlike(c: DeviceConfig, i: nat, s: State, s': State, answers: seq<Outcome>)
    requires i + |answers| <= 4
    ensures SerialRun(c, i, s, answers).Finished? == SerialRun(c, i, s', answers).Finished?
    ensures SerialRun(c, i, s, answers).Asking? == SerialRun(c, i, s', answers).Asking?
    decreases |answers|
  {
    if answers != [] {
      match SerialStep(c, i, s, answers[0])
      case Stop(_) =>
      case Next(t) =>
        var t' := SerialStep(c, i, s', answers[0]).state;
        SerialRunStopsAlike(c, i + 1, t, t', answers[1..]);
    }
  }

  /** Steps after the power question never change the power flag. */
  lemma {:induction false} SerialRunKeepsPower(c: DeviceConfig, i: nat, s: State, answers: seq<Outcome>)
    requires 1 <= i && i + |answers| <= 4
    requires SerialRun(c, i, s, answers).Finished?
    ensures SerialRun(c, i, s, answers).state.power == s.power
    decreases |answers|
  {
    match SerialStep(c, i, s, answers[0])
    case Stop(_) =>
    case Next(t) => SerialRunKeepsPower(c, i + 1, t, answers[1..]);
  }

  /** A refresh that goes on past an answer took the `Next` branch on it. */
  lemma SerialRunNext(c: DeviceConfig, i: nat, s: State, answers: seq<Outcome>)
    requires i + |answers| <= 4 && |answers| >= 2
    requires SerialRun(c, i, s, answers).Finished?
    ensures SerialStep(c, i, s, answers[0]).Next?
    ensures SerialRun(c, i, s, answers) == SerialRun(c, i + 1, SerialStep(c, i, s, answers[0]).state, answers[1..])
  {
  }

  /** The first three questions never change the source. */
  lemma {:induction false} SerialRunKeepsSource(c: DeviceConfig, i: nat, s: State, answers: seq<Outcome>)
    requires i + |answers| <= 3
    requires !SerialRun(c, i, s, answers).Overrun?
    ensures SerialRun(c, i, s, answers).state.source == s.source
    decreases |answers|
  {
    if answers != [] {
      match SerialStep(c, i, s, answers[0])
      case Stop(_) =>
      case Next(t) => SerialRunKeepsSource(c, i + 1, t, answers[1..]);
    }
  }

  /**
   * Power is exactly "the power question answered On"; the other three
   * questions are asked only then, and a failed power question stops the
   * refresh with the state unchanged.
   */
  lemma SerialPowerGate(c: DeviceConfig, s: State, answers: seq<Outcome>)
    requires SerialComplete(c, s, answers)
    ensures |answers| >= 1
    ensures answers[0].Done? ==> SerialRefresh(c, s, answers).power == (answers[0].value == Text("On"))
    ensures |answers| > 1 ==> answers[0] == Done(Text("On"))
    ensures answers[0].Raised? ==> answers == [answers[0]] && SerialRefresh(c, s, answers) == s
  {
    if |answers| > 1 {
      SerialRunNext(c, 0, s, answers);
      SerialRunKeepsPower(c, 1, SerialStep(c, 0, s, answers[0]).state, answers[1..]);
    } else {
      assert SerialRun(c, 0, s, answers) == SerialRun(c, 0, s, [answers[0]]);
    }
  }

  /** Steps after the mute question never change the mute flag. */
  lemma {:induction false} SerialRunKeepsMuted(c: DeviceConfig, i: nat, s: State, answers: seq<Outcome>)
    requires 2 <= i && i + |answers| <= 4
    requires SerialRun(c, i, s, answers).Finished?
    ensures SerialRun(c, i, s, answers).state.muted == s.muted
    decreases |answers|
  {
    match SerialStep(c, i, s, answers[0])
    case Stop(_) =>
    case Next(t) => SerialRunKeepsMuted(c, i + 1, t, answers[1..]);
  }

  /** The mute flag a powered serial refresh ends with is "the mute answer was On". */
  lemma SerialMuteReading(c: DeviceConfig, s: State, answers: seq<Outcome>)
    requires SerialComplete(c, s, answers)
    requires |answers| >= 2 && answers[1].Done?
    ensures |answers| >= 3
    ensures SerialRefresh(c, s, answers).muted == (answers[1].value == Text("On"))
  {
    SerialRunNext(c, 0, s, answers);
    var t0 := SerialStep(c, 0, s, answers[0]).state;
    var rest := answers[1..];
    var t1 := SerialStep(c, 1, t0, rest[0]).state;
    SerialRunNext(c, 1, t0, rest);
    SerialRunKeepsMuted(c, 2, t1, rest[1..]);
  }

  /** The volume set by the volume question is the one the refresh ends with, unclamped. */
  lemma SerialVolumeIsLastSet(c: DeviceConfig, s: State, answers: seq<Outcome>, db: int)
    requires SerialComplete(c, s, answers)
    requires |answers| >= 3 && answers[2] == Done(Number(db)) && c.minVolume != c.maxVolume
    ensures |answers| == 4
    ensures SerialRefresh(c, s, answers).volume == SerialPercent(db, c.minVolume, c.maxVolume).value
  {
    SerialRunNext(c, 0, s, answers);
    var t0 := SerialStep(c, 0, s, answers[0]).state;
    SerialRunNext(c, 1, t0, answers[1..]);
    var t1 := SerialStep(c, 1, t0, answers[1]).state;
    assert answers[1..][1..] == answers[2..];
    var t2 := SerialStep(c, 2, t1, answers[2]);
    assert t2.Next?;
    assert |answers| == 4;
    assert answers[2..][1..] == [answers[3]];
  }

  /**
   * The source is replaced only when a source table exists and the source
   * reply is truthy; a numeric reply then becomes the table's name for it
   * (None when the code is not in the table).
   */
  lemma SerialSourceLookup(c: DeviceConfig, s: State, answers: seq<Outcome>)
    requires SerialComplete(c, s, answers)
    ensures |answers| < 4 ==> SerialRefresh(c, s, answers).source == s.source
    ensures |answers| == 4 && !(answers[3].Done? && HasSources(c) && Truthy(answers[3].value)) ==>
              SerialRefresh(c, s, answers).source == s.source
    ensures |answers| == 4 && HasSources(c) && answers[3].Done? && answers[3].value.Number? && answers[3].value.n != 0 ==>
              SerialRefresh(c, s, answers).source == NameOf(c.sources.value, answers[3].value.n)
  {
    if |answers| < 4 {
      SerialRunKeepsSource(c, 0, s, answers);
    } else {
      SerialRunNext(c, 0, s, answers);
      var t0 := SerialStep(c, 0, s, answers[0]).state;
      SerialRunNext(c, 1, t0, answers[1..]);
      var t1 := SerialStep(c, 1, t0, answers[1]).state;
      assert answers[1..][1..] == answers[2..];
      SerialRunNext(c, 2, t1, answers[2..]);
      assert answers[2..][1..] == [answers[3]];
    }
  }

  /** Feeding one more answer to a refresh that was still asking takes one step. */
  lemma {:induction false} SerialRunExtend(c: DeviceConfig, i: nat, s: State, answers: seq<Outcome>, o: Outcome)
    requires i + |answers| < 4
    requires SerialRun(c, i, s, answers).Asking?
    ensures SerialRun(c, i, s, answers + [o]) == RunAfter(SerialStep(c, i + |answers|, SerialRun(c, i, s, answers).state, o))
    decreases |answers|
  {
    if answers == [] {
      assert [] + [o] == [o];
    } else {
      assert (answers + [o])[0] == answers[0];
      assert (answers + [o])[1..] == answers[1..] + [o];
      SerialRunExtend(c, i + 1, SerialStep(c, i, s, answers[0]).state, answers[1..], o);
    }
  }

  /** The questions a refresh asks: one status call on TCP, up to four queries otherwise. */
  function RefreshQueries(c: DeviceConfig): (q: seq<Call>)
    ensures 1 <= |q| <= 4
    ensures IsTcp(c) ==> q == [GetStatus]
    ensures !IsTcp(c) ==> q == [MainPower(Query), MainMute(Query), MainVolume(Query), MainSource(Query)]
  {
    if IsTcp(c) then [GetStatus] else SerialQueries
  }

  /** `answers` are exactly the outcomes a refresh sees before it ends. */
  predicate RefreshComplete(c: DeviceConfig, s: State, answers: seq<Outcome>) {
    if IsTcp(c) then |answers| == 1 else SerialComplete(c, s, answers)
  }

  /** The state a complete refresh leaves, for either dialect. */
  function Refreshed(c: DeviceConfig, s: State, answers: seq<Outcome>): State
    requires RefreshComplete(c, s, answers)
  {
    if IsTcp(c) then TcpRefresh(TcpNative(c.minVolume), TcpNative(c.maxVolume), s, answers[0])
    else SerialRefresh(c, s, answers)
  }

  /**
   * Which answers make a complete refresh does not depend on the state it
   * starts from: a command's optimistic update never changes the questions
   * its refresh asks.
   */
  lemma RefreshCompleteIgnoresState(c: DeviceConfig, s: State, s': State, answers: seq<Outcome>)
    ensures RefreshComplete(c, s, answers) <==> RefreshComplete(c, s', answers)
  {
    if !IsTcp(c) && |answers| <= 4 {
      SerialRunStopsAlike(c, 0, s, s', answers);
    }
  }

  /**
   * A refresh whose first call raised keeps the state it started from, so a
   * command's optimistic update survives a failed refresh.
   */
  lemma RefreshFailureKeepsState(c: DeviceConfig, s: State, answers: seq<Outcome>)
    requires RefreshComplete(c, s, answers) && answers[0].Raised?
    ensures Refreshed(c, s, answers) == s
  {
    if !IsTcp(c) {
      SerialPowerGate(c, s, answers);
    }
  }
}

=== FILE: setup_flow.dfy ===
/**
 * The setup flow: checking the user's input, deriving the device identifier
 * and building the device configuration once a connection probe succeeds.
 * The probe itself talks to the receiver and is given as its outcome.
 */
module SetupFlow {
  import opened Wrappers
  import opened Config
  import opened Text
  import opened Args

  /** The setup input form's values; a missing field is None. */
  datatype Input = Input(
    name: Option<string>,
    connectionType: Option<string>,
    host: Option<string>,
    port: Option<Arg>,
    serialPort: Option<string>)

  /**
   * The outcome of `query_device`: a configuration, a setup error (always
   * CONNECTION_REFUSED here), or an exception escaping it because the port
   * is not a number.
   */
  datatype SetupResult = Configured(config: DeviceConfig) | Refused | BadPort

  /** The dialects that address the receiver by host name. */
  predicate ByHost(connectionType: string) {
    connectionType == "TCP" || connectionType == "Telnet"
  }

  /** The identifier of a TCP or Telnet device: host and port joined by an underscore. */
  function HostIdentifier(host: string, port: int): (id: string)
    ensures id == host + "_" + IntToString(port)
    ensures |id| > |host| && id[..|host|] == host && id[|host|] == '_'
  {
    host + "_" + IntToString(port)
  }

  /** The identifier of a serial device: its path with every `/` and `\` turned into `_`. */
  function SerialIdentifier(path: string): (id: string)
    ensures |id| == |path|
    ensures '/' !in id && '\\' !in id
    ensures forall k :: 0 <= k < |path| ==> id[k] == (if path[k] == '/' || path[k] == '\\' then '_' else path[k])
  {
    Replace(Replace(path, '/', '_'), '\\', '_')
  }

  /**
   * `query_device`: strip name, host and serial path, read the port as an
   * integer, refuse a missing host or serial path, derive the identifier,
   * then refuse when the probe failed and otherwise build the configuration
   * with the default volume range and no source table.
   */
  function QueryDevice(input: Input, probeOk: bool): (r: SetupResult)
    ensures r.BadPort? <==> ToInt(input.port.GetOr(Int(53))).None?
    ensures r.Refused? <==>
              && ToInt(input.port.GetOr(Int(53))).Some?
              && (|| !probeOk
                  || (ByHost(input.connectionType.GetOr("TCP")) && Strip(input.host.GetOr("")) == [])
                  || (!ByHost(input.connectionType.GetOr("TCP")) && Strip(input.serialPort.GetOr("/dev/ttyUSB0")) == []))
    ensures r.Configured? ==>
              r.config.name == (if Strip(input.name.GetOr("")) != [] then Strip(input.name.GetOr(""))
                                else "NAD " + input.connectionType.GetOr("TCP"))
    ensures r.Configured? ==> probeOk
    ensures r.Configured? ==>
              && r.config.connectionType == input.connectionType.GetOr("TCP")
              && Some(r.config.port) == ToInt(input.port.GetOr(Int(53)))
              && r.config.serialPort == Strip(input.serialPort.GetOr("/dev/ttyUSB0"))
              && r.config.minVolume == -92 && r.config.maxVolume == -20 && r.config.volumeStep == 4
              && r.config.sources.None?
              && r.config.name != []
    ensures r.Configured? && ByHost(r.config.connectionType) ==>
              && r.config.host == Some(Strip(input.host.GetOr("")))
              && r.config.identifier == HostIdentifier(r.config.host.value, r.config.port)
              && r.config.host.value != []
    ensures r.Configured? && !ByHost(r.config.connectionType) ==>
              && r.config.host.None?
              && r.config.identifier == SerialIdentifier(r.config.serialPort)
              && r.config.serialPort != []
  {
    var name := Strip(input.name.GetOr(""));
    var connectionType := input.connectionType.GetOr("TCP");
    var host := Strip(input.host.GetOr(""));
    match ToInt(input.port.GetOr(Int(53)))
    case None => BadPort
    case Some(port) =>
      var serialPort := Strip(input.serialPort.GetOr("/dev/ttyUSB0"));
      if ByHost(connectionType) && host == [] then Refused
      else if !ByHost(connectionType) && serialPort == [] then Refused
      else if !probeOk then Refused
      else
        var identifier := if ByHost(connectionType) then HostIdentifier(host, port) else SerialIdentifier(serialPort);
        Configured(DeviceConfig(
          identifier,
          if name != [] then name else "NAD " + connectionType,
          connectionType,
          if ByHost(connectionType) then Some(host) else None,
          port,
          serialPort,
          -92, -20, 4,
          None))
  }

  /** A failed probe refuses the setup, whatever was entered. */
  lemma FailedProbeRefuses(input: Input)
    ensures QueryDevice(input, false).Refused? || QueryDevice(input, false).BadPort?
  {
  }

  /** A TCP or Telnet setup with a blank host is refused before any probe: the probe's outcome does not matter. */
  lemma BlankHostRefused(input: Input, probeOk: bool)
    requires ByHost(input.connectionType.GetOr("TCP"))
    requires AllSpace(input.host.GetOr(""))
    requires ToInt(input.port.GetOr(Int(53))).Some?
    ensures QueryDevice(input, probeOk) == Refused
  {
    StripEmpty(input.host.GetOr(""));
  }

  /** An empty form is refused: it asks for TCP, and gives no host. */
  lemma EmptyFormRefused(probeOk: bool)
    ensures QueryDevice(Input(None, None, None, None, None), probeOk) == Refused
  {
    BlankHostRefused(Input(None, None, None, None, None), probeOk);
  }

  /**
   * A TCP setup with a host, the default port and a good probe yields a TCP
   * configuration named after the host and port 53, with the configuration
   * record's default port, serial path and volume settings.
   */
  lemma DefaultPortConfig(host: string, name: string)
    requires Strip(host) != []
    ensures var r := QueryDevice(Input(Some(name), None, Some(host), None, None), true);
            && r.Configured?
            && r.config.identifier == Strip(host) + "_53"
            && r.config.connectionType == "TCP" && r.config.host == Some(Strip(host))
            && r.config.port == DefaultPort && r.config.serialPort == DefaultSerialPort
            && r.config.minVolume == DefaultMinVolume && r.config.maxVolume == DefaultMaxVolume
            && r.config.volumeStep == DefaultVolumeStep && r.config.sources.None?
  {
    var input := Input(Some(name), None, Some(host), None, None);
    assert ToInt(input.port.GetOr(Int(53))) == Some(53);
    assert QueryDevice(input, true).Configured?;
    DefaultPortText();
    DefaultSerialPortStripped();
  }

  /** The default port prints as "53". */
  lemma DefaultPortText()
    ensures IntToString(DefaultPort) == "53"
  {
    assert Digits(5) == "5";
  }

  /** The default serial path has no surrounding whitespace. */
  lemma DefaultSerialPortStripped()
    ensures Strip(DefaultSerialPort) == DefaultSerialPort
  {
    NumeralNotSpace('0');
    assert !IsSpace('/');
    StripNoEdges(DefaultSerialPort);
  }

  /** No `_` in a printed integer: it is digits, after a minus sign when negative. */
  lemma NoUnderscoreInNumber(n: int)
    ensures '_' !in IntToString(n)
  {
    var s := IntToString(n);
    if n < 0 {
      var d := Digits(-n);
      assert forall k :: 0 <= k < |d| ==> s[k + 1] == d[k];
    }
  }

  /** Two TCP or Telnet devices share an identifier only when host and port are the same. */
  lemma HostIdentifierInjective(host1: string, port1: int, host2: string, port2: int)
    requires HostIdentifier(host1, port1) == HostIdentifier(host2, port2)
    ensures host1 == host2 && port1 == port2
  {
    var s1, s2 := IntToString(port1), IntToString(port2);
    var id := HostIdentifier(host1, port1);
    if |s1| < |s2| {
      NoUnderscoreInNumber(port2);
      UnderscoreInsidePort(host1, s1, host2, s2);
    } else if |s2| < |s1| {
      NoUnderscoreInNumber(port1);
      UnderscoreInsidePort(host2, s2, host1, s1);
    } else {
      assert s1 == id[|id| - |s1|..] == s2;
      IntRoundTrip(port1);
      IntRoundTrip(port2);
      assert host1 == id[..|host1|] == host2;
    }
  }

  /** A shorter port at the end leaves its underscore where the longer one has a digit. */
  lemma UnderscoreInsidePort(host1: string, s1: string, host2: string, s2: string)
    requires host1 + "_" + s1 == host2 + "_" + s2 && |s1| < |s2|
    ensures '_' in s2
  {
    var id := host1 + "_" + s1;
    var k := |id| - |s1| - 1;
    assert id[k] == '_';
    assert id[k] == s2[k - |host2| - 1];
  }

  /** `discover_devices`: the NAD integration has no discovery; it finds nothing. */
  function DiscoverDevices(): (found: seq<DeviceConfig>)
    ensures |found| == 0
  {
    []
  }
}

=== FILE: text.dfy ===
/**
 * The few Python string built-ins the integration relies on: `str.strip()`,
 * `str.replace` of one character by another, `str(int)` and `int(str)`.
 */
module Text {
  import opened Wrappers

  /** The characters `str.isspace()` accepts, which `str.strip()` removes. */
  predicate IsSpace(ch: char) {
    || ch == ' ' || ('\t' <= ch <= '\r') || ('\U{1C}' <= ch <= '\U{1F}')
    || ch == '\U{85}' || ch == '\U{A0}' || ch == '\U{1680}' || ('\U{2000}' <= ch <= '\U{200A}')
    || ch == '\U{2028}' || ch == '\U{2029}' || ch == '\U{202F}' || ch == '\U{205F}' || ch == '\U{3000}'
  }

  /** Every character of `s` is whitespace. */
  predicate AllSpace(s: string) {
    forall k :: 0 <= k < |s| ==> IsSpace(s[k])
  }

  /** A concatenation is all whitespace exactly when both parts are. */
  lemma AllSpaceAppend(x: string, y: string)
    ensures AllSpace(x + y) <==> AllSpace(x) && AllSpace(y)
  {
    var u := x + y;
    if AllSpace(u) {
      forall k | 0 <= k < |x| ensures IsSpace(x[k]) {
        assert x[k] == u[k];
      }
      forall k | 0 <= k < |y| ensures IsSpace(y[k]) {
        assert y[k] == u[|x| + k];
      }
    }
    if AllSpace(x) && AllSpace(y) {
      forall k | 0 <= k < |u| ensures IsSpace(u[k]) {
        if k < |x| {
          assert u[k] == x[k];
        } else {
          assert u[k] == y[k - |x|];
        }
      }
    }
  }

  /** The number of whitespace characters `s` starts with. */
  function LeadingSpaces(s: string): (n: nat)
    ensures n <= |s| && AllSpace(s[..n])
    ensures n < |s| ==> !IsSpace(s[n])
  {
    if s == [] || !IsSpace(s[0]) then 0
    else
      var tail := s[1..];
      var m := LeadingSpaces(tail);
      assert s[..m + 1] == [s[0]] + tail[..m];
      AllSpaceAppend([s[0]], tail[..m]);
      assert m + 1 < |s| ==> s[m + 1] == tail[m];
      m + 1
  }

  /** The number of whitespace characters `s` ends with. */
  function TrailingSpaces(s: string): (n: nat)
    ensures n <= |s| && AllSpace(s[|s| - n..])
    ensures n < |s| ==> !IsSpace(s[|s| - n - 1])
  {
    if s == [] || !IsSpace(s[|s| - 1]) then 0
    else
      var init := s[..|s| - 1];
      var m := TrailingSpaces(init);
      assert s[|s| - (m + 1)..] == init[|init| - m..] + [s[|s| - 1]];
      AllSpaceAppend(init[|init| - m..], [s[|s| - 1]]);
      assert m + 1 < |s| ==> s[|s| - (m + 1) - 1] == init[|init| - m - 1];
      m + 1
  }

  /**
   * `str.strip()`: the longest slice of `s` that neither starts nor ends with
   * whitespace; everything cut off on either side is whitespace.
   */
  function Strip(s: string): (r: string)
    ensures LeadingSpaces(s) + |r| <= |s| && r == s[LeadingSpaces(s)..LeadingSpaces(s) + |r|]
    ensures AllSpace(s[LeadingSpaces(s) + |r|..])
    ensures |r| > 0 ==> !IsSpace(r[0]) && !IsSpace(r[|r| - 1])
  {
    var a := LeadingSpaces(s);
    var rest := s[a..];
    var cut := |rest| - TrailingSpaces(rest);
    var r := rest[..cut];
    assert s[a + |r|..] == rest[cut..];
    assert |r| > 0 ==> r[0] == s[a] && r[|r| - 1] == rest[cut - 1];
    r
  }

  /** Stripping leaves nothing exactly when the string is all whitespace. */
  lemma StripEmpty(s: string)
    ensures Strip(s) == [] <==> AllSpace(s)
  {
    var a := LeadingSpaces(s);
    if Strip(s) == [] {
      assert s == s[..a] + s[a..];
      AllSpaceAppend(s[..a], s[a..]);
    }
  }

  /** A string without whitespace at either end is its own strip. */
  lemma StripNoEdges(s: string)
    requires |s| > 0 ==> !IsSpace(s[0]) && !IsSpace(s[|s| - 1])
    ensures Strip(s) == s
  {
    if |s| > 0 {
      assert LeadingSpaces(s) == 0;
      assert TrailingSpaces(s) == 0;
    }
  }

  /** Stripping twice strips no more than stripping once. */
  lemma StripIdempotent(s: string)
    ensures Strip(Strip(s)) == Strip(s)
  {
    StripNoEdges(Strip(s));
  }

  /** `s.replace(a, b)` for single characters: every `a` becomes `b`, nothing else changes. */
  function Replace(s: string, a: char, b: char): (r: string)
    ensures |r| == |s|
    ensures forall k :: 0 <= k < |s| ==> r[k] == (if s[k] == a then b else s[k])
    ensures a != b ==> a !in r
  {
    if s == [] then [] else [if s[0] == a then b else s[0]] + Replace(s[1..], a, b)
  }

  predicate IsDigit(ch: char) {
    '0' <= ch <= '9'
  }

  /** A string of decimal digits only. */
  predicate AllDigits(s: string) {
    forall k :: 0 <= k < |s| ==> IsDigit(s[k])
  }

  /** The decimal digit character for d. */
  function DigitChar(d: nat): (ch: char)
    requires d < 10
    ensures IsDigit(ch)
  {
    "0123456789"[d]
  }

  /** The value of a decimal digit character. */
  function DigitValue(ch: char): (d: nat)
    requires IsDigit(ch)
    ensures d < 10 && DigitChar(d) == ch
  {
    ch as int - '0' as int
  }

  /** The decimal digits of n, most significant first and without leading zeros. */
  function Digits(n: nat): (s: string)
    ensures |s| > 0 && AllDigits(s)
    ensures |s| > 1 ==> s[0] != '0'
  {
    if n < 10 then [DigitChar(n)] else Digits(n / 10) + [DigitChar(n % 10)]
  }

  /** The number a string of decimal digits spells, leading zeros allowed. */
  function DigitsValue(s: string): (n: nat)
    requires AllDigits(s)
  {
    if s == [] then 0 else 10 * DigitsValue(s[..|s| - 1]) + DigitValue(s[|s| - 1])
  }

  /** Reading back the digits of n gives n. */
  lemma {:induction false} DigitsRoundTrip(n: nat)
    ensures DigitsValue(Digits(n)) == n
  {
    if n >= 10 {
      var s := Digits(n);
      assert s[..|s| - 1] == Digits(n / 10);
      DigitsRoundTrip(n / 10);
    }
  }

  /** `str(n)` for an int: a minus sign before the digits of a negative number. */
  function IntToString(n: int): (s: string)
    ensures |s| > 0 && IsDigit(s[|s| - 1])
    ensures s[0] == '-' <==> n < 0
    ensures n >= 0 ==> AllDigits(s)
    ensures n >= 0 && |s| > 1 ==> s[0] != '0'
    ensures n < 0 ==> |s| > 1 && AllDigits(s[1..]) && (|s| > 2 ==> s[1] != '0')
  {
    if n < 0 then "-" + Digits(-n) else Digits(n)
  }

  /**
   * `int(s)` for a string: surrounding whitespace, an optional sign, then at
   * least one decimal digit; anything else raises, given here as None.
   */
  function ParseInt(s: string): (r: Option<int>)
    ensures r.Some? ==> |Strip(s)| > 0
    ensures var t := Strip(s);
            r.Some? <==> (|t| > 0 && AllDigits(t)) || (|t| > 1 && (t[0] == '-' || t[0] == '+') && AllDigits(t[1..]))
    ensures var t := Strip(s); r.Some? && AllDigits(t) ==> r.value == DigitsValue(t)
    ensures var t := Strip(s); r.Some? && |t| > 1 && t[0] == '+' && AllDigits(t[1..]) ==> r.value == DigitsValue(t[1..])
    ensures var t := Strip(s); r.Some? && |t| > 1 && t[0] == '-' && AllDigits(t[1..]) ==> r.value + DigitsValue(t[1..]) == 0
  {
    var t := Strip(s);
    var negative := |t| > 0 && t[0] == '-';
    var body := if |t| > 0 && (t[0] == '-' || t[0] == '+') then t[1..] else t;
    if |body| > 0 && AllDigits(body) then
      var magnitude: int := DigitsValue(body);
      Some(if negative then -magnitude else magnitude)
    else None
  }

  /** A sign and leading zeros are accepted; a letter makes `int()` raise. */
  lemma ParseIntExamples()
    ensures ParseInt("+007") == Some(7)
    ensures ParseInt("12a") == None
  {
    var s := "+007";
    assert !IsSpace(s[0]) && !IsSpace(s[3]);
    StripNoEdges(s);
    assert s[1..] == "007";
    DigitsValueOf007();
    var t := "12a";
    assert !IsSpace(t[0]) && !IsSpace(t[2]);
    StripNoEdges(t);
    assert !IsDigit(t[2]);
  }

  /** The digits "007" spell 7. */
  lemma DigitsValueOf007()
    ensures AllDigits("007") && DigitsValue("007") == 7
  {
    var d0, d1, d2 := "0", "00", "007";
    assert d2[..2] == d1;
    assert d1[..1] == d0;
    assert d0[..0] == [];
    assert DigitsValue(d0) == 0;
    assert DigitsValue(d1) == 0;
  }

  /** Digits and the minus sign are not whitespace. */
  lemma NumeralNotSpace(ch: char)
    requires IsDigit(ch) || ch == '-'
    ensures !IsSpace(ch)
  {
  }

  /** `int(str(n)) == n`: printing an integer and parsing it back loses nothing. */
  lemma IntRoundTrip(n: int)
    ensures ParseInt(IntToString(n)) == Some(n)
  {
    var s := IntToString(n);
    NumeralNotSpace(s[0]);
    NumeralNotSpace(s[|s| - 1]);
    StripNoEdges(s);
    if n < 0 {
      var d := Digits(-n);
      assert s[1..] == d;
      DigitsRoundTrip(-n);
    } else {
      DigitsRoundTrip(n);
    }
  }
}

=== FILE: volume.dfy ===
/**
 * Volume unit conversion between the platform's 0..100 percent and the
 * receiver's native scales.
 *
 * TCP receivers use a doubled, offset scale, native = (dB + 90) * 2; RS-232
 * and Telnet receivers use raw decibels. The source computes with floats and
 * truncates with `int(...)`; here the arithmetic is exact and the truncation
 * is toward zero, as Python's `int` of a float is.
 */
module Volume {
  import opened Wrappers

  /** The exact quotient n / d truncated toward zero (Python `int(n / d)`), for d > 0. */
  function TruncQuot(n: int, d: int): (q: int)
    requires d > 0
    ensures n >= 0 ==> q * d <= n < q * d + d
    ensures n < 0 ==> q * d - d < n <= q * d
  {
    if n >= 0 then n / d else -((-n) / d)
  }

  /** The exact quotient a / b truncated toward zero, for any non-zero b. */
  function TruncDiv(a: int, b: int): (q: int)
    requires b != 0
    ensures b > 0 ==> q == TruncQuot(a, b)
    ensures b < 0 ==> q == TruncQuot(-a, -b)
  {
    if b > 0 then TruncQuot(a, b) else TruncQuot(-a, -b)
  }

  /** The TCP native level of a decibel value: (dB + 90) * 2. */
  function TcpNative(db: int): (n: int)
    ensures n % 2 == 0
    ensures n >= 0 <==> db >= -90
  {
    (db + 90) * 2
  }

  /**
   * A percent on the native range lo..hi: int((percent / 100) * (hi - lo) + lo).
   * This is `_nad_volume_from_percent` on the TCP range and the level sent by
   * `set_volume` on either range. No clamp is applied to the percent.
   */
  function PercentToNative(percent: int, lo: int, hi: int): (n: int)
    ensures percent * (hi - lo) - 100 < (n - lo) * 100 < percent * (hi - lo) + 100
    ensures var x := percent * (hi - lo) + 100 * lo;
            (x >= 0 ==> n * 100 <= x < n * 100 + 100) && (x < 0 ==> n * 100 - 100 < x <= n * 100)
  {
    var exact := percent * (hi - lo) + 100 * lo;
    var n := TruncQuot(exact, 100);
    assert n * 100 - 100 < exact < n * 100 + 100;
    n
  }

  /**
   * The TCP refresh's percent of a native level: 0 below the range, 100 above
   * it, otherwise the truncated linear position. None is the division by zero
   * the source meets when the range is a single point.
   */
  function TcpPercent(nad: int, lo: int, hi: int): (r: Option<int>)
    ensures r.None? <==> nad == lo == hi
    ensures r.Some? ==> 0 <= r.value <= 100
    ensures nad < lo ==> r == Some(0)
    ensures lo <= hi < nad ==> r == Some(100)
    ensures lo <= nad <= hi && lo < hi ==>
              r.Some? && r.value * (hi - lo) <= (nad - lo) * 100 < (r.value + 1) * (hi - lo)
  {
    if nad < lo then Some(0)
    else if nad > hi then Some(100)
    else if hi == lo then None
    else
      var q := TruncQuot((nad - lo) * 100, hi - lo);
      QuotientInPercentRange(nad - lo, hi - lo, q);
      Some(q)
  }

  /** The quotient of a position 0..range, scaled by 100, lies in 0..100. */
  lemma QuotientInPercentRange(pos: int, range: int, q: int)
    requires 0 <= pos <= range && range > 0
    requires q == TruncQuot(pos * 100, range)
    ensures 0 <= q <= 100
    ensures q * range <= pos * 100 < (q + 1) * range
  {
    assert pos * 100 >= 0;
    if q > 100 {
      MulMonotone(101, q, range);
      assert false;
    }
    if q < 0 {
      MulMonotone(q + 1, 0, range);
      assert false;
    }
  }

  /** Multiplication by a non-negative factor keeps order. */
  lemma MulMonotone(a: int, b: int, k: int)
    requires a <= b && k >= 0
    ensures a * k <= b * k
  {
    assert b * k - a * k == (b - a) * k;
  }

  /**
   * The RS-232/Telnet refresh's percent of a decibel reading:
   * int(((db - lo) / (hi - lo)) * 100), with no clamp. None is the
   * division by zero when lo == hi.
   */
  function SerialPercent(db: int, lo: int, hi: int): (r: Option<int>)
    ensures r.None? <==> lo == hi
    ensures lo < hi && lo <= db <= hi ==> r.Some? && 0 <= r.value <= 100
    ensures lo < hi && db > hi ==> r.Some? && r.value >= 100
    ensures lo < hi && db < lo ==> r.Some? && r.value <= 0
    ensures lo < hi && db >= lo ==> r.Some? && r.value * (hi - lo) <= (db - lo) * 100 < (r.value + 1) * (hi - lo)
    ensures lo < hi && db < lo ==> r.Some? && (r.value - 1) * (hi - lo) < (db - lo) * 100 <= r.value * (hi - lo)
  {
    if hi == lo then None
    else
      var q := TruncDiv((db - lo) * 100, hi - lo);
      SerialQuotientBounds(db, lo, hi, q);
      assert lo < hi ==> (q + 1) * (hi - lo) == q * (hi - lo) + (hi - lo);
      assert lo < hi ==> (q - 1) * (hi - lo) == q * (hi - lo) - (hi - lo);
      Some(q)
  }

  /** Where an ordered range puts the serial quotient, by where the reading lies. */
  lemma SerialQuotientBounds(db: int, lo: int, hi: int, q: int)
    requires hi != lo && q == TruncDiv((db - lo) * 100, hi - lo)
    ensures lo < hi && lo <= db <= hi ==> 0 <= q <= 100
    ensures lo < hi && db > hi ==> q >= 100
    ensures lo < hi && db < lo ==> q <= 0
  {
    if lo < hi {
      if db < lo {
        assert (db - lo) * 100 < 0;
      } else if db <= hi {
        QuotientInPercentRange(db - lo, hi - lo, q);
      } else {
        AboveRangeQuotient(db - lo, hi - lo, q);
      }
    }
  }

  /** A position past the range, scaled by 100, gives a quotient of at least 100. */
  lemma AboveRangeQuotient(pos: int, range: int, q: int)
    requires 0 < range < pos
    requires q == TruncQuot(pos * 100, range)
    ensures q >= 100
  {
    if q < 100 {
      MulMonotone(q + 1, 100, range);
      assert false;
    }
  }

  /** Truncation toward zero keeps the sign of the numerator. */
  lemma TruncQuotSign(n: int, d: int)
    requires d > 0
    ensures n >= 0 ==> TruncQuot(n, d) >= 0
    ensures n <= 0 ==> TruncQuot(n, d) <= 0
  {
    var q := TruncQuot(n, d);
    if n >= 0 && q < 0 {
      MulMonotone(q, -1, d);
      assert false;
    }
    if n <= 0 && q > 0 {
      MulMonotone(1, q, d);
      assert false;
    }
  }

  /** Truncation toward zero never decreases as the numerator grows. */
  lemma TruncQuotMonotone(n: int, m: int, d: int)
    requires d > 0 && n <= m
    ensures TruncQuot(n, d) <= TruncQuot(m, d)
  {
    var a, b := TruncQuot(n, d), TruncQuot(m, d);
    if a > b {
      MulMonotone(b + 1, a, d);
      TruncQuotSign(n, d);
      TruncQuotSign(m, d);
      assert false;
    }
  }

  /** `_nad_volume_from_percent` sends 0 percent to the bottom of the range and 100 to the top. */
  lemma PercentToNativeEndpoints(lo: int, hi: int)
    ensures PercentToNative(0, lo, hi) == lo
    ensures PercentToNative(100, lo, hi) == hi
  {
  }

  /** On an ordered range the native level never decreases as the percent grows. */
  lemma PercentToNativeMonotone(p: int, p': int, lo: int, hi: int)
    requires p <= p' && lo <= hi
    ensures PercentToNative(p, lo, hi) <= PercentToNative(p', lo, hi)
  {
    MulMonotone(p, p', hi - lo);
    TruncQuotMonotone(p * (hi - lo) + 100 * lo, p' * (hi - lo) + 100 * lo, 100);
  }

  /** Every percent in 0..100 lands inside an ordered native range. */
  lemma PercentToNativeInRange(p: int, lo: int, hi: int)
    requires 0 <= p <= 100 && lo <= hi
    ensures lo <= PercentToNative(p, lo, hi) <= hi
  {
    PercentToNativeEndpoints(lo, hi);
    PercentToNativeMonotone(0, p, lo, hi);
    PercentToNativeMonotone(p, 100, lo, hi);
  }

  /**
   * Sending 0 or 100 percent to a TCP receiver and reading the level back
   * gives exactly 0 or 100 percent.
   */
  lemma TcpRoundTripEndpoints(lo: int, hi: int)
    requires lo < hi
    ensures TcpPercent(PercentToNative(0, lo, hi), lo, hi) == Some(0)
    ensures TcpPercent(PercentToNative(100, lo, hi), lo, hi) == Some(100)
  {
    PercentToNativeEndpoints(lo, hi);
    var q := TcpPercent(hi, lo, hi).value;
    if q < 100 {
      MulMonotone(q + 1, 100, hi - lo);
      assert false;
    }
  }

  /**
   * On a native range at least 100 levels wide (the default TCP range is 144),
   * reading back the level sent for any percent in 0..100 gives that percent
   * or one less: the two truncations lose at most one point.
   */
  lemma TcpRoundTripWithinOne(p: int, lo: int, hi: int)
    requires 0 <= p <= 100 && hi - lo >= 100
    ensures var r := TcpPercent(PercentToNative(p, lo, hi), lo, hi);
            r == Some(p) || r == Some(p - 1)
  {
    var n := PercentToNative(p, lo, hi);
    PercentToNativeInRange(p, lo, hi);
    var q := TcpPercent(n, lo, hi).value;
    TwoTruncations(p, hi - lo, (n - lo) * 100, q);
  }

  /**
   * A scaled position x within 100 of p * range, read back as the truncated
   * quotient q of x by a range of at least 100, gives p or p - 1.
   */
  lemma TwoTruncations(p: int, range: int, x: int, q: int)
    requires range >= 100
    requires p * range - 100 < x < p * range + 100
    requires q * range <= x < (q + 1) * range
    ensures q == p || q == p - 1
  {
    if q > p {
      MulMonotone(p + 1, q, range);
      assert false;
    }
    if q < p - 1 {
      MulMonotone(q + 1, p - 1, range);
      assert false;
    }
  }

  /**
   * On a narrow range the round trip can lose much more than one point:
   * 49 percent of a 2-level range is sent as its bottom and reads back as 0.
   */
  lemma NarrowRangeRoundTrip()
    ensures PercentToNative(49, 0, 2) == 0
    ensures TcpPercent(PercentToNative(49, 0, 2), 0, 2) == Some(0)
  {
  }

  /** The default TCP range, from -92 dB to -20 dB, is -4..140: 144 levels wide. */
  lemma DefaultTcpRange()
    ensures TcpNative(-92) == -4 && TcpNative(-20) == 140
    ensures TcpNative(-20) - TcpNative(-92) >= 100
  {
  }

  /** An ordered decibel range gives an ordered, non-empty TCP native range. */
  lemma TcpNativeRangeOrdered(minDb: int, maxDb: int)
    requires minDb < maxDb
    ensures TcpNative(minDb) + 2 <= TcpNative(maxDb)
  {
  }

  /**
   * The serial reading is not clamped: with the default -92..-20 dB range a
   * receiver at -10 dB reads as 113 percent, and one at -100 dB as -11.
   */
  lemma SerialPercentUnclamped()
    ensures SerialPercent(-10, -92, -20) == Some(113)
    ensures SerialPercent(-100, -92, -20) == Some(-11)
  {
  }
}

=== FILE: wrappers.dfy ===
/** Optional values: Python's `None` next to a present value. */
module Wrappers {

  datatype Option<+T> = None | Some(value: T) {

    /** The value when present, otherwise the given default (`dict.get(key, default)`). */
    function GetOr(default: T): T {
      match this
      case Some(v) => v
      case None => default
    }
  }
}
